=== FILE: README.md ===
# Website loader — a Dafny model

This project models `WebsiteLoader`, the part of a desktop search helper that
reads a directory of locale-tagged CSV files of websites. It covers:

- **Discovery and selection.** `get_csv_files` lists the directory's `.csv`
  files. `get_selected_csv_files` keeps the ones named in the enabled-files
  setting. `get_all_and_selected_files` reports both lists.
- **Locale derivation.** The locale comes from a file name: take the root of
  the name, remove every `-links`, and upper-case the result. The token
  `COMMON` becomes the sign `★`.
- **Record ingestion** (`load_websites`). Each non-empty row whose four
  required cells are non-blank once stripped becomes a record
  `[nav_type, locale, category, is_enabled, url, comment]`.
- **The aggregate** (`get_domains_data`). This is the set of locales, the set
  of domains, and whether the common file is selected. It is kept in the
  loader's shared fields and recomputed from scratch on each call.
- **Two text ledgers.**
  - A hash log. A 16-digit hash is appended only when it is not already a
    line of the log.
  - A list of skipped domain suggestions. A domain is appended on every save.
    Loading reads the set of non-blank stripped lines.

The file system is a value:

- `CsvDir` holds the directory listing (`None` when the directory is missing)
  and the parsed rows of each file that still exists when it is opened.
- `Ledgers.TextFiles` maps a path to the file's text. Its methods rewrite
  that map in place, as appending to a file does.

The Python string operations the loader relies on are defined in `PyStr` as
CPython computes them, except that `upper` is defined on ASCII letters only
(see "## Left out"):

- `strip` (with `isspace`);
- `upper`;
- `replace(…, "")`;
- `os.path.splitext`;
- `split("/")`;
- `"//" in url`;
- `splitlines`;
- line iteration over a text file.

## Behaviour a reader might not expect

The model follows the code in each of these cases.

- **The `-links` suffix.** One might expect only a trailing `-links` suffix
  to be removed, in any case. The code removes every occurrence of `-links`,
  in one left-to-right pass, and only in lower case. So:
  - `common-LINKS.csv` is not the common file (`Loader.UpperCaseSuffixIsKept`);
  - `co-linksmmon.csv` is the common file (`Loader.InnerSuffixMakesCommonFile`).
- **The common file in the aggregate.** One might expect the aggregate to
  test the derived locale against the sign. The code tests the token against
  `COMMON`. So a file named `★.csv` is added as the locale `★`
  (`Loader.SignFileIsReportedAsLocale`).
- **The comment cell.** Unlike the four required cells, the comment cell is
  not stripped: the code keeps it verbatim (`Loader.RecordIsNormalized`).
- **`get_all_and_selected_files`.** Its second list is not the selected
  subset: the code returns the configured list unfiltered
  (`Loader.SelectedIsIntersection`).
- **Rows in the aggregate.** The aggregate does not validate rows. The code
  skips empty rows, and adds the domain of every other row, blank URL
  included (`Loader.EmptyUrlGivesEmptyDomain`).

## Model

| member | source | states |
|---|---|---|
| Loader.CsvFiles | website_loader.py:18-21 | a missing directory gives no files, and there are never more files than listed entries |
| Loader.SelectedCsvFiles | website_loader.py:24-27 | the selection is no longer than the discovered files, and an empty enabled list selects nothing |
| Loader.CsvFilesSpec | website_loader.py:18-21 | a missing directory gives no files; otherwise the result is exactly the listed names ending in ".csv", in listing order |
| Loader.SelectedCsvFilesSpec | website_loader.py:24-27 | the selection is exactly the discovered files whose name is enabled, in discovery order |
| Loader.SelectedKeepListingOrder | website_loader.py:21-27 | the selected files are a subsequence of the directory listing |
| Loader.SelectedNoDuplicates | website_loader.py:21-27 | a listing without repeated names gives a selection without repeated names |
| Loader.AllAndSelectedFiles | website_loader.py:30-33 | the second list is the configured list, unfiltered, and every selected file is in both lists |
| Loader.SelectedIsIntersection | website_loader.py:30-33 | the second list is the configured list unchanged, and a name is selected iff it is both discovered and configured |
| Loader.LocaleToken | website_loader.py:73 | the locale token holds no lower-case ASCII letter |
| Loader.DerivedLocale | website_loader.py:73-75 | the derived locale is never "COMMON" |
| Loader.DerivedLocaleIsToken | website_loader.py:73-75 | the locale is never "COMMON"; it is the sign iff the token is "COMMON" or "★", else the token; no lower-case ASCII letter remains |
| Loader.LinksFileToken | website_loader.py:73 | for a dash-free x, "x-links.csv" has token upper(x) |
| Loader.FrenchFileLocale | website_loader.py:73-75 | "fr-links.csv" gets the locale "FR" |
| Loader.RegionLinksFileToken | website_loader.py:73 | for dash-free x and y, where y does not begin with "links", "x-y-links.csv" has the token upper("x-y"): the dash before the region survives |
| Loader.BrazilianFileLocale | website_loader.py:73-75 | "pt-br-links.csv" gets the locale "PT-BR" |
| Loader.CommonFileLocale | website_loader.py:73-75 | "common-links.csv" has token "COMMON" and locale "★" |
| Loader.UpperCaseSuffixIsKept | website_loader.py:73-75 | an upper-case "-LINKS" suffix is not removed and stays in the locale |
| Loader.InnerSuffixIsRemoved | website_loader.py:73 | "-links" is removed in the middle of a name as well |
| Loader.InnerSuffixMakesCommonFile | website_loader.py:73-75 | "co-linksmmon.csv" gets the common sign |
| Loader.SignFileLocale | website_loader.py:73-75 | "★.csv" gets the token and the locale "★" |
| Loader.Domain | website_loader.py:123 | with "//" in the URL the domain holds no "/" |
| Loader.DomainSpec | website_loader.py:123 | without "//" the domain is the URL; with it the split has at least three parts, the domain is the third, holds no "/", and the parts join back to the URL |
| Loader.DomainOfHost | website_loader.py:123 | the domain of "scheme://host" is the host |
| Loader.DomainOfHostPath | website_loader.py:123 | the domain of "scheme://host/rest" is the host, whatever the rest |
| Loader.DomainWithoutScheme | website_loader.py:123 | "example.com/path" is its own domain |
| Loader.DomainOfHttpsUrl | website_loader.py:123 | the domain of "https://example.com/path" is "example.com" |
| Loader.RecordIsNormalized | website_loader.py:85-95 | a kept row's record has the four required fields non-empty and already stripped, the file's locale, and the raw comment cell iff the column is present |
| Loader.DroppedRowIff | website_loader.py:82-93 | a row is dropped iff it is empty or one required cell is missing or all whitespace |
| Loader.FileRecordsBound | website_loader.py:81-95 | a file yields at most one record per row |
| Loader.FileRecordsAllKept | website_loader.py:81-95 | a file whose rows are all valid yields exactly one record per row |
| Loader.FileRecordsDropRow | website_loader.py:81-95 | one invalid row makes a file yield fewer records than rows |
| Loader.FileRecordsCount | website_loader.py:81-95 | a file yields exactly as many records as it has kept rows |
| Loader.FileRecordsAreKeptRecords | website_loader.py:81-95 | a file's records are exactly the records of its kept rows, one per row, in row order |
| Loader.FileRecordsSound | website_loader.py:81-95 | every record of a file is built from one of its kept rows |
| Loader.FileRecordsComplete | website_loader.py:81-95 | every kept row of a file yields its record |
| Loader.RecordsSound | website_loader.py:69-96 | every record comes from a selected file present on disk, with that file's locale |
| Loader.RecordsComplete | website_loader.py:69-96 | every record of a selected file present on disk is returned |
| Loader.RecordsConcat | website_loader.py:66-96 | records follow the order of the selected files |
| Loader.LocalesSound | website_loader.py:109-113 | every reported locale is the token, other than "COMMON", of a selected file present on disk |
| Loader.LocalesComplete | website_loader.py:109-113 | the token of every selected present file other than the common file is reported |
| Loader.GlobalIff | website_loader.py:109-111 | include_global holds iff some selected present file has the token "COMMON" |
| Loader.RowDomainsSound | website_loader.py:119-124 | every domain of a file comes from one of its non-empty rows |
| Loader.RowDomainsComplete | website_loader.py:119-124 | every non-empty row contributes its domain, valid record or not |
| Loader.DomainsSound | website_loader.py:105-124 | every reported domain comes from a selected file present on disk |
| Loader.DomainsComplete | website_loader.py:105-124 | every domain of a selected file present on disk is reported |
| Loader.EmptyUrlGivesEmptyDomain | website_loader.py:122-124 | a non-empty row with a blank or missing URL adds the empty domain |
| Loader.SignFileIsReportedAsLocale | website_loader.py:109-113 | a file "★.csv" adds "★" to the locales and does not set include_global |
| Loader.RecordLocaleIsReported | website_loader.py:69-113 | each loaded record's locale is a reported locale, or the sign with include_global set |
| Loader.WebsiteLoader.constructor | website_loader.py:13-15 | the shared aggregate starts empty and false |
| Loader.WebsiteLoader.ReadRow | website_loader.py:81-95 | a row yields a record iff it is kept, and the record is built from the stripped cells |
| Loader.WebsiteLoader.ReadRows | website_loader.py:81-95 | the row loop returns the records of the kept rows in row order |
| Loader.WebsiteLoader.LoadWebsites | website_loader.py:65-96 | the result is the records of the selected present files, in selection then row order |
| Loader.WebsiteLoader.AddFileDomains | website_loader.py:119-124 | adds the domain of every non-empty row and leaves locales and include_global unchanged |
| Loader.WebsiteLoader.GetDomainsData | website_loader.py:99-126 | the fields are reset and become the locales, domains and include_global of the selected present files; the returned triple equals the fields |
| Ledgers.GenerateHash | website_loader.py:36-37 | the hash is a prefix of the hex digest of at most 16 characters, exactly 16 when the digest is that long |
| Ledgers.HasHash | website_loader.py:40-44 | a missing file holds no hash, and a hash found as a line holds no line boundary |
| Ledgers.TextFiles.HasHashInFile | website_loader.py:40-44 | a path with no file holds no hash, and a found hash is one of the file's lines |
| Ledgers.SkippedDomains | website_loader.py:53-57 | a missing file gives the empty set, and every skipped domain is non-empty and already stripped |
| Ledgers.TextFiles.LoadSkippedDomains | website_loader.py:53-57 | with no skipped-domain file the set is empty, and every member is non-empty and already stripped |
| Ledgers.GeneratedHashIsOneLine | website_loader.py:36-37 | a hash cut from a 64-digit SHA-256 hex digest has 16 hex digits and no line break |
| Ledgers.SaveHashLines | website_loader.py:47-50 | saving a new one-line hash to a log that ends in a newline adds exactly that line |
| Ledgers.SaveHashFinds | website_loader.py:40-50 | after saving, the hash is found in a log that ended in a newline or did not exist |
| Ledgers.SaveHashIdempotent | website_loader.py:40-50 | for a log that ends in a newline or does not exist, saving the same one-line hash twice leaves the log as saving it once |
| Ledgers.SaveHashKeepsListed | website_loader.py:40-50 | for a log that ends in a newline or does not exist, saving never removes a listed hash |
| Ledgers.UnterminatedLogSwallowsHash | website_loader.py:43-50 | a log "abc" without a final newline becomes "abch\n" and the hash "h" is still not found |
| Ledgers.SaveSkippedLines | website_loader.py:56-62 | saving a one-line domain to a list that ends in a newline adds exactly that line |
| Ledgers.SkippedDomainsAfterSave | website_loader.py:53-62 | for a one-line domain and a list that ends in a newline or does not exist, saving makes the loaded set gain the domain's stripped form if it is non-blank (a blank domain adds nothing), and nothing else |
| Ledgers.SkippedDomainTwice | website_loader.py:60-62 | for a one-line domain and a list that ends in a newline or does not exist, saving the domain twice lists it on two more lines |
| Ledgers.UnterminatedListSwallowsDomain | website_loader.py:53-62 | a list "abc" without a final newline becomes "abcx\n" after saving "x"; the loaded set changes from {"abc"} to {"abcx"}, so "x" is not listed and "abc" is lost |
| Ledgers.TextFiles.SaveHashToFile | website_loader.py:47-50 | the log becomes the hash-log update of its old text, no other file changes, and a one-line hash is then found in a log that ended in a newline |
| Ledgers.TextFiles.SaveSkippedDomain | website_loader.py:60-62 | the domain and a newline are always appended and no other file changes; for a one-line domain and a list that ends in a newline or does not exist, the loaded set gains exactly the stripped domain, and a blank domain adds nothing |
| PyStr.StripLeftSpec | website_loader.py:85-88 | lstrip removes exactly the leading whitespace |
| PyStr.StripRightSpec | website_loader.py:85-88 | rstrip removes exactly the trailing whitespace |
| PyStr.StripSpec | website_loader.py:85-88 | the stripped value is a slice with only whitespace outside it, and it neither starts nor ends with whitespace |
| PyStr.StripIdempotent | website_loader.py:85-88 | stripping twice is stripping once |
| PyStr.StripEmptyIff | website_loader.py:85-91 | a stripped value is empty iff the input is all whitespace |
| PyStr.UpperProperties | website_loader.py:73 | upper keeps the length, leaves no lower-case ASCII letter, keeps other characters, and is idempotent |
| PyStr.ContainsMiddle | website_loader.py:123 | p occurs in a + p + b |
| PyStr.RemoveAll | website_loader.py:73 | deleting occurrences never lengthens the string |
| PyStr.RemoveAllAbsent | website_loader.py:73 | a string without the pattern is unchanged |
| PyStr.RemoveAllKeepsPrefix | website_loader.py:73 | a prefix without the pattern's first character is kept as it is |
| PyStr.RemoveAllDropsMatch | website_loader.py:73 | an occurrence at the front is deleted and scanning resumes after it |
| PyStr.RemoveAllIsSinglePass | website_loader.py:73 | an occurrence formed by a deletion survives: "--linkslinks" becomes "-links" |
| PyStr.LastIndexOf | website_loader.py:73 | the result is -1 or an index holding the character, with none after it |
| PyStr.CsvRoot | website_loader.py:73 | the root of x + ".csv" is x when x holds a character other than a dot |
| PyStr.HiddenCsvRoot | website_loader.py:73 | ".csv" has no extension to split off |
| PyStr.SplitOnSpec | website_loader.py:123 | a split has one part more than there are separators, and no part holds the separator |
| PyStr.JoinSplit | website_loader.py:123 | joining the parts of a split gives back the string |
| PyStr.SplitJoin | website_loader.py:123 | splitting a join of separator-free parts gives back the parts |
| PyStr.SplitOnWithout | website_loader.py:123 | a string without the separator splits into itself |
| PyStr.SplitOnAfterFirst | website_loader.py:123 | the first separator ends the first part |
| PyStr.DoubleSlashSplits | website_loader.py:123 | a string containing "//" splits on "/" into at least three parts |
| PyStr.LinesHaveNoBreaks | website_loader.py:44 | no line of a split holds a line-boundary character |
| PyStr.LinesAppend | website_loader.py:44-57 | a text ending in a newline splits independently of the text appended after it |
| PyStr.OneLine | website_loader.py:50 | a break-free line followed by a newline is exactly one line |
| PyStr.Unterminated | website_loader.py:44 | a non-empty break-free text is a single line |
| Seqs.FilterSpec | website_loader.py:21-27 | the filtered list holds exactly the kept elements, in their order, and is no longer than the input |
| Seqs.FilterNoDuplicates | website_loader.py:27 | filtering a list without repetitions creates none |

## Left out

- File-system calls, namely `os.path.exists`, `os.listdir` and `open`. They
  become the `CsvDir` and `TextFiles` values.
  - A path is its base name, so `os.path.join` with the module directory is
    not modelled.
  - A directory entry named `*.csv` that is not a regular file is not
    modelled.
  - I/O and encoding errors are not modelled.
  - A file disappearing between discovery and reading is modelled as a
    missing table.
- CSV parsing with `csv.DictReader` (quoting, the header row, and
  `website_loader.py:79`, which strips the header names). Rows arrive as
  maps from the already-stripped header names to cell text.
- CSV files without a header line. For a completely empty file
  `reader.fieldnames` is `None`, so `website_loader.py:79` (and line 117)
  raises `TypeError` and the whole `load_websites` or `get_domains_data`
  call fails. The model cannot tell such a file from a file with a header
  and no rows: both contribute nothing.
- Short rows. `DictReader` fills the missing cells of a short row with
  `None`, and `.strip()` on `None` raises. Every cell of the model is a
  string.
- SHA-256. `generate_hash` is modelled as the 16-character slice of a hex
  digest computed elsewhere.
- The warning printed for a skipped row (`website_loader.py:92`).
- The configuration object. It becomes the `enabled` parameter, which stands
  for the configured list or its default. The `CsvColumnNames` constants
  become the `Columns` parameter.
- Concurrency.
  - The race between checking and appending in the hash log is not modelled.
  - Class-level fields shared across threads are modelled as the fields of
    one `WebsiteLoader` object.
- Loader.WebsiteLoader.GetDomainsData: returns the locale and domain sets as
  values. In Python the returned sets are the class fields themselves
  (`website_loader.py:126`). A caller that mutates them therefore changes the
  shared state until the next call rebinds the fields (lines 101-102).
- PyStr.UpperProperties: upper-casing is modelled for ASCII letters only.
  Python's `str.upper` also maps other letters, such as `é` to `É`, and
  expands some characters, such as `ß` to `SS`.
- The inner row loops of `load_websites` and `get_domains_data` are written
  as the methods `ReadRows` and `AddFileDomains`. They do exactly what the
  inlined loops do.

=== FILE: ledgers.dfy ===
/** The two plain-text ledgers kept beside the loader: a log of short hashes,
    one per line, appended only when the hash is not yet listed, and the
    list of domain suggestions the user chose to skip, appended every time.
    The file system is a map from path to file content. */
module Ledgers {
  import opened Wrappers
  import opened PyStr

  /** Path of the skipped-domain list. */
  const SkippedDomainsPath: string := "skipped_domain_suggestions.txt"

  /** Number of hex digits kept from the SHA-256 digest. */
  const HashLength: nat := 16

  // ---------------------------------------------------------------------
  // Hashes

  predicate IsHexDigit(c: char) {
    '0' <= c <= '9' || 'a' <= c <= 'f'
  }

  /** `hexdigest()[:16]`: the SHA-256 hex digest itself is computed outside
      the model and passed in; a slice past the end keeps the whole string. */
  function GenerateHash(hexDigest: string): (r: string)
    ensures StartsWith(hexDigest, r) && |r| <= HashLength
    ensures |hexDigest| >= HashLength ==> |r| == HashLength
  {
    if |hexDigest| <= HashLength then hexDigest else hexDigest[..HashLength]
  }

  /** A hash made from a SHA-256 hex digest (64 lower-case hex digits) has
      sixteen hex digits and so fits on one line of the log. */
  lemma GeneratedHashIsOneLine(hexDigest: string)
    requires |hexDigest| == 64 && forall k :: 0 <= k < 64 ==> IsHexDigit(hexDigest[k])
    ensures |GenerateHash(hexDigest)| == HashLength
    ensures forall k :: 0 <= k < HashLength ==> IsHexDigit(GenerateHash(hexDigest)[k])
    ensures GenerateHash(hexDigest) != []
    ensures NoBreaks(GenerateHash(hexDigest), LineBoundaries)
  {
    var h := GenerateHash(hexDigest);
    forall k | 0 <= k < |h|
      ensures h[k] !in LineBoundaries
    {
      assert h[k] == hexDigest[k];
    }
  }

  // ---------------------------------------------------------------------
  // File contents

  /** The text of a file, the empty text for a file that does not exist
      (appending to a missing file creates it). */
  function Contents(file: Option<string>): string {
    if file.Some? then file.value else ""
  }

  /** Appending a line to such a text starts a line of its own. */
  predicate Terminated(text: string) {
    text == [] || text[|text| - 1] == '\n'
  }

  /** `hash_value in file.read().splitlines()`; a missing file holds no hash. */
  predicate HasHash(h: string, file: Option<string>): (b: bool)
    ensures file.None? ==> !b
    ensures b ==> NoBreaks(h, LineBoundaries)
  {
    if file.None? then false
    else
      LinesHaveNoBreaks(file.value, LineBoundaries);
      h in SplitLines(file.value)
  }

  /** The log after `save_hash_to_file`: unchanged when the hash is listed,
      otherwise extended by the hash and a newline. */
  function SaveHash(h: string, file: Option<string>): Option<string> {
    if HasHash(h, file) then file else Some(Contents(file) + h + "\n")
  }

  /** `{line.strip() for line in file if line.strip()}`; a missing file
      gives the empty set. */
  function SkippedDomains(file: Option<string>): (r: set<string>)
    ensures file.None? ==> r == {}
    ensures forall d :: d in r ==> d != [] && Strip(d) == d
  {
    var lines := ReadLines(Contents(file));
    StripAllIdempotent();
    set k | 0 <= k < |lines| && Strip(lines[k]) != [] :: Strip(lines[k])
  }

  /** The skipped list after `save_skipped_domain`: always extended, even
      when the domain is already listed. */
  function SaveSkipped(d: string, file: Option<string>): string {
    Contents(file) + d + "\n"
  }

  // ---------------------------------------------------------------------
  // Properties of the hash log

  /** Saving a new one-line hash to a log that ends in a newline adds exactly
      that line. */
  lemma SaveHashLines(h: string, file: Option<string>)
    requires NoBreaks(h, LineBoundaries) && Terminated(Contents(file)) && !HasHash(h, file)
    ensures SaveHash(h, file).Some?
    ensures SplitLines(SaveHash(h, file).value) == SplitLines(Contents(file)) + [h]
    ensures Terminated(SaveHash(h, file).value)
  {
    var c := Contents(file);
    assert c + h + "\n" == c + (h + "\n");
    LinesAppend(c, h + "\n", LineBoundaries);
    OneLine(h, LineBoundaries);
  }

  /** After saving, a one-line hash is found in a log that ended in a newline
      (or did not exist). */
  lemma SaveHashFinds(h: string, file: Option<string>)
    requires NoBreaks(h, LineBoundaries) && Terminated(Contents(file))
    ensures HasHash(h, SaveHash(h, file))
  {
    if !HasHash(h, file) {
      SaveHashLines(h, file);
      var lines := SplitLines(Contents(file)) + [h];
      assert lines[|lines| - 1] == h;
    }
  }

  /** Saving the same hash twice is saving it once. */
  lemma SaveHashIdempotent(h: string, file: Option<string>)
    requires NoBreaks(h, LineBoundaries) && Terminated(Contents(file))
    ensures SaveHash(h, SaveHash(h, file)) == SaveHash(h, file)
  {
    SaveHashFinds(h, file);
  }

  /** Saving never forgets a listed hash. */
  lemma SaveHashKeepsListed(g: string, h: string, file: Option<string>)
    requires HasHash(g, file) && Terminated(Contents(file))
    ensures HasHash(g, SaveHash(h, file))
  {
    if !HasHash(h, file) {
      var c := Contents(file);
      assert c + h + "\n" == c + (h + "\n");
      LinesAppend(c, h + "\n", LineBoundaries);
    }
  }

  /** A log whose last line has no newline swallows the next hash: "abc"
      becomes "abch\n", whose only line is "abch", so "h" is still missing. */
  lemma UnterminatedLogSwallowsHash()
    ensures SaveHash("h", Some("abc")) == Some("abch\n")
    ensures !HasHash("h", SaveHash("h", Some("abc")))
  {
    var c := "abc";
    assert NoBreaks(c, LineBoundaries) by {
      assert c[0] == 'a' && c[1] == 'b' && c[2] == 'c';
    }
    Unterminated(c, LineBoundaries);
    assert "h" != c;
    assert !HasHash("h", Some(c));
    var t := "abch";
    assert c + "h" + "\n" == t + "\n" == "abch\n";
    assert NoBreaks(t, LineBoundaries) by {
      assert t[0] == 'a' && t[1] == 'b' && t[2] == 'c' && t[3] == 'h';
    }
    OneLine(t, LineBoundaries);
    assert "h" != t;
  }

  // ---------------------------------------------------------------------
  // Properties of the skipped-domain list

  /** Appending a domain without newline characters to a list that ends in a
      newline adds exactly that line. */
  lemma SaveSkippedLines(d: string, file: Option<string>)
    requires NoBreaks(d, UniversalNewlines) && Terminated(Contents(file))
    ensures ReadLines(SaveSkipped(d, file)) == ReadLines(Contents(file)) + [d]
    ensures Terminated(SaveSkipped(d, file))
  {
    var c := Contents(file);
    assert c + d + "\n" == c + (d + "\n");
    LinesAppend(c, d + "\n", UniversalNewlines);
    OneLine(d, UniversalNewlines);
  }

  /** Saving a domain makes its stripped form a skipped domain, and adds
      nothing else. */
  lemma SkippedDomainsAfterSave(d: string, file: Option<string>)
    requires NoBreaks(d, UniversalNewlines) && Terminated(Contents(file))
    ensures SkippedDomains(Some(SaveSkipped(d, file))) ==
      SkippedDomains(file) + (if Strip(d) != [] then {Strip(d)} else {})
  {
    SaveSkippedLines(d, file);
    var before := ReadLines(Contents(file));
    var after := ReadLines(SaveSkipped(d, file));
    assert Contents(Some(SaveSkipped(d, file))) == SaveSkipped(d, file);
    forall x | x in SkippedDomains(Some(SaveSkipped(d, file)))
      ensures x in SkippedDomains(file) + (if Strip(d) != [] then {Strip(d)} else {})
    {
      var k :| 0 <= k < |after| && Strip(after[k]) != [] && x == Strip(after[k]);
      if k < |before| {
        assert after[k] == before[k];
      }
    }
    forall x | x in SkippedDomains(file)
      ensures x in SkippedDomains(Some(SaveSkipped(d, file)))
    {
      var k :| 0 <= k < |before| && Strip(before[k]) != [] && x == Strip(before[k]);
      assert after[k] == before[k];
    }
    if Strip(d) != [] {
      assert after[|before|] == d;
    }
  }

  /** Saving the same domain twice lists it twice in the file. */
  lemma SkippedDomainTwice(d: string, file: Option<string>)
    requires NoBreaks(d, UniversalNewlines) && Terminated(Contents(file))
    ensures ReadLines(SaveSkipped(d, Some(SaveSkipped(d, file)))) == ReadLines(Contents(file)) + [d, d]
  {
    SaveSkippedLines(d, file);
    SaveSkippedLines(d, Some(SaveSkipped(d, file)));
  }

  /** A text whose only line is a non-blank stripped `l` lists just `l`. */
  lemma SingleLineDomains(t: string, l: string)
    requires ReadLines(t) == [l] && l != [] && Strip(l) == l
    ensures SkippedDomains(Some(t)) == {l}
  {
    assert Contents(Some(t)) == t;
    assert ReadLines(t)[0] == l;
  }

  /** A list whose last line has no newline swallows the next domain: "abc"
      becomes "abcx\n", whose only line is "abcx", so the loaded set loses
      "abc" and does not gain "x". */
  lemma UnterminatedListSwallowsDomain()
    ensures SaveSkipped("x", Some("abc")) == "abcx\n"
    ensures SkippedDomains(Some("abc")) == {"abc"}
    ensures SkippedDomains(Some(SaveSkipped("x", Some("abc")))) == {"abcx"}
  {
    var c := "abc";
    assert NoBreaks(c, UniversalNewlines) by {
      assert c[0] == 'a' && c[1] == 'b' && c[2] == 'c';
    }
    Unterminated(c, UniversalNewlines);
    assert Strip(c) == c by {
      assert !IsSpace(c[0]) && !IsSpace(c[2]);
    }
    SingleLineDomains(c, c);
    var t := "abcx";
    assert c + "x" + "\n" == t + "\n" == "abcx\n";
    assert NoBreaks(t, UniversalNewlines) by {
      assert t[0] == 'a' && t[1] == 'b' && t[2] == 'c' && t[3] == 'x';
    }
    OneLine(t, UniversalNewlines);
    assert Strip(t) == t by {
      assert !IsSpace(t[0]) && !IsSpace(t[3]);
    }
    SingleLineDomains(t + "\n", t);
  }

  // ---------------------------------------------------------------------
  // The files on disk

  class TextFiles {
    var files: map<string, string>

    constructor (initial: map<string, string>)
      ensures files == initial
    {
      files := initial;
    }

    function File(path: string): Option<string>
      reads this
    {
      if path in files then Some(files[path]) else None
    }

    /** `has_hash_in_file` */
    function HasHashInFile(h: string, path: string): (b: bool)
      reads this
      ensures path !in files ==> !b
      ensures b ==> h in SplitLines(files[path])
    {
      HasHash(h, File(path))
    }

    /** `save_hash_to_file`: appends the hash and a newline unless the file
        already lists it; no other file changes. */
    method SaveHashToFile(h: string, path: string)
      modifies this
      ensures File(path) == SaveHash(h, old(File(path)))
      ensures forall p :: p != path ==> File(p) == old(File(p))
      ensures NoBreaks(h, LineBoundaries) && Terminated(Contents(old(File(path)))) ==> HasHashInFile(h, path)
    {
      if !HasHashInFile(h, path) {
        var text := if path in files then files[path] else "";
        files := files[path := text + h + "\n"];
      }
      if NoBreaks(h, LineBoundaries) && Terminated(Contents(old(File(path)))) {
        SaveHashFinds(h, old(File(path)));
      }
    }

    /** `load_skipped_domains` */
    function LoadSkippedDomains(): (r: set<string>)
      reads this
      ensures SkippedDomainsPath !in files ==> r == {}
      ensures forall d :: d in r ==> d != [] && Strip(d) == d
    {
      SkippedDomains(File(SkippedDomainsPath))
    }

    /** `save_skipped_domain`: appends the domain and a newline; no other
        file changes. */
    method SaveSkippedDomain(d: string)
      modifies this
      ensures File(SkippedDomainsPath) == Some(SaveSkipped(d, old(File(SkippedDomainsPath))))
      ensures forall p :: p != SkippedDomainsPath ==> File(p) == old(File(p))
      ensures NoBreaks(d, UniversalNewlines) && Terminated(Contents(old(File(SkippedDomainsPath)))) ==>
        LoadSkippedDomains() == old(LoadSkippedDomains()) + (if Strip(d) != [] then {Strip(d)} else {})
    {
      var text := if SkippedDomainsPath in files then files[SkippedDomainsPath] else "";
      files := files[SkippedDomainsPath := text + d + "\n"];
      if NoBreaks(d, UniversalNewlines) && Terminated(Contents(old(File(SkippedDomainsPath)))) {
        SkippedDomainsAfterSave(d, old(File(SkippedDomainsPath)));
      }
    }
  }
}

=== FILE: loader.dfy ===
/** The website loader: discovery and selection of the locale CSV files,
    locale derivation from a file name, ingestion of rows into website
    records, and the locale/domain aggregate kept on the loader. The file
    system is a value: the directory listing and the already-parsed rows of
    every CSV file that exists when it is read. */
module Loader {
  import opened Wrappers
  import opened Seqs
  import opened PyStr

  /** Shown instead of a locale for entries that apply to every locale. */
  const CommonLocaleSign: string := "★"
  /** The locale token of the file holding the entries for every locale. */
  const CommonToken: string := "COMMON"
  const LinksSuffix: string := "-links"
  const CsvExtension: string := ".csv"

  /** One CSV row as `csv.DictReader` yields it: header name to cell text. */
  type Row = map<string, string>

  /** The header names of the five columns the loader reads. */
  datatype Columns = Columns(navType: string, category: string, isEnabled: string, url: string, comment: string)

  /** The CSV directory: its listing (`None` when the directory is missing)
      and the rows of each file that still exists when it is opened. */
  datatype CsvDir = CsvDir(listing: Option<seq<string>>, tables: map<string, seq<Row>>)

  /** `[nav_type, locale, category, is_enabled, url, comment]` */
  datatype Website = Website(
    navType: string, locale: string, category: string, isEnabled: string, url: string, comment: Option<string>)

  // ---------------------------------------------------------------------
  // Discovery and selection

  /** `get_csv_files`: the directory entries ending in ".csv", in listing order. */
  function CsvFiles(listing: Option<seq<string>>): (r: seq<string>)
    ensures listing.None? ==> r == []
    ensures listing.Some? ==> |r| <= |listing.value|
  {
    if listing.None? then []
    else
      FilterSpec(listing.value, (f: string) => EndsWith(f, CsvExtension));
      Filter(listing.value, (f: string) => EndsWith(f, CsvExtension))
  }

  /** A missing directory has no CSV files; otherwise the CSV files are
      exactly the listed names ending in ".csv", in listing order. */
  lemma CsvFilesSpec(listing: Option<seq<string>>)
    ensures var r := CsvFiles(listing);
      (listing.None? ==> r == []) &&
      (forall i :: 0 <= i < |r| ==> EndsWith(r[i], CsvExtension)) &&
      (listing.Some? ==> SubsequenceOf(r, listing.value)) &&
      (listing.Some? ==> forall i :: 0 <= i < |r| ==> r[i] in listing.value) &&
      (listing.Some? ==>
        forall i :: 0 <= i < |listing.value| && EndsWith(listing.value[i], CsvExtension) ==> listing.value[i] in r)
  {
    if listing.Some? {
      FilterSpec(listing.value, (f: string) => EndsWith(f, CsvExtension));
    }
  }

  /** `get_selected_csv_files`: the discovered files whose name is in the
      enabled list, in discovery order. */
  function SelectedCsvFiles(listing: Option<seq<string>>, enabled: seq<string>): (r: seq<string>)
    ensures |r| <= |CsvFiles(listing)|
    ensures enabled == [] ==> r == []
  {
    FilterSpec(CsvFiles(listing), (f: string) => f in enabled);
    Filter(CsvFiles(listing), (f: string) => f in enabled)
  }

  /** The selection is exactly the discovered files that are enabled, in
      discovery order. */
  lemma SelectedCsvFilesSpec(listing: Option<seq<string>>, enabled: seq<string>)
    ensures var r := SelectedCsvFiles(listing, enabled);
      (forall i :: 0 <= i < |r| ==> r[i] in CsvFiles(listing) && r[i] in enabled) &&
      (forall i :: 0 <= i < |CsvFiles(listing)| && CsvFiles(listing)[i] in enabled ==> CsvFiles(listing)[i] in r) &&
      SubsequenceOf(r, CsvFiles(listing))
  {
    FilterSpec(CsvFiles(listing), (f: string) => f in enabled);
  }

  /** `get_all_and_selected_files`: every discovered name, and the enabled
      list exactly as configured (not intersected with the directory). */
  function AllAndSelectedFiles(listing: Option<seq<string>>, enabled: seq<string>): (r: (seq<string>, seq<string>))
    ensures r.1 == enabled
    ensures forall f :: f in SelectedCsvFiles(listing, enabled) ==> f in r.0 && f in r.1
  {
    SelectedCsvFilesSpec(listing, enabled);
    (CsvFiles(listing), enabled)
  }

  /** The selected files keep the order of the directory listing. */
  lemma SelectedKeepListingOrder(listing: Option<seq<string>>, enabled: seq<string>)
    requires listing.Some?
    ensures SubsequenceOf(SelectedCsvFiles(listing, enabled), listing.value)
  {
    CsvFilesSpec(listing);
    SelectedCsvFilesSpec(listing, enabled);
    SubsequenceTransitive(SelectedCsvFiles(listing, enabled), CsvFiles(listing), listing.value);
  }

  /** A listing without repeated names gives a selection without repeated names. */
  lemma SelectedNoDuplicates(listing: Option<seq<string>>, enabled: seq<string>)
    requires listing.Some? && NoDuplicates(listing.value)
    ensures NoDuplicates(SelectedCsvFiles(listing, enabled))
  {
    FilterNoDuplicates(listing.value, (f: string) => EndsWith(f, CsvExtension));
    FilterNoDuplicates(CsvFiles(listing), (f: string) => f in enabled);
  }

  /** The two lists reported by `get_all_and_selected_files` intersect in
      exactly the selection used for loading; the configured list itself is
      returned unfiltered. */
  lemma SelectedIsIntersection(listing: Option<seq<string>>, enabled: seq<string>, f: string)
    ensures AllAndSelectedFiles(listing, enabled).1 == enabled
    ensures f in SelectedCsvFiles(listing, enabled) <==>
      f in AllAndSelectedFiles(listing, enabled).0 && f in AllAndSelectedFiles(listing, enabled).1
  {
    SelectedCsvFilesSpec(listing, enabled);
  }

  // ---------------------------------------------------------------------
  // Locale derivation

  /** The file's root, with every "-links" removed, upper-cased: no ASCII
      lower-case letter is left in it. */
  function LocaleToken(fileName: string): (r: string)
    ensures forall k :: 0 <= k < |r| ==> !('a' <= r[k] <= 'z')
  {
    var root := RemoveAll(SplitExtRoot(fileName), LinksSuffix);
    UpperProperties(root);
    Upper(root)
  }

  /** The locale attached to the records of a file: its token, or the common
      sign when the token is "COMMON". */
  function DerivedLocale(fileName: string): (r: string)
    ensures r != CommonToken
  {
    var token := LocaleToken(fileName);
    if token == CommonToken then CommonLocaleSign else token
  }

  /** A derived locale is the token itself except for "COMMON", which becomes
      the sign; so the sign appears exactly for the tokens "COMMON" and "★". */
  lemma DerivedLocaleIsToken(fileName: string)
    ensures DerivedLocale(fileName) != CommonToken
    ensures DerivedLocale(fileName) == CommonLocaleSign <==> LocaleToken(fileName) in {CommonToken, CommonLocaleSign}
    ensures LocaleToken(fileName) != CommonToken ==> DerivedLocale(fileName) == LocaleToken(fileName)
    ensures forall k :: 0 <= k < |LocaleToken(fileName)| ==> !('a' <= LocaleToken(fileName)[k] <= 'z')
  {
    UpperProperties(RemoveAll(SplitExtRoot(fileName), LinksSuffix));
  }

  /** "<x>-links.csv" has the token "<X>" when `x` holds no dash. */
  lemma {:induction false} LinksFileToken(x: string)
    requires '-' !in x
    ensures LocaleToken(x + "-links.csv") == Upper(x)
  {
    var stem := x + LinksSuffix;
    assert x + "-links.csv" == stem + ".csv";
    assert stem[|x|] == '-';
    CsvRoot(stem);
    RemoveAllKeepsPrefix(x, LinksSuffix, LinksSuffix);
    RemoveAllDropsMatch(LinksSuffix, []);
    assert LinksSuffix + [] == LinksSuffix;
  }

  /** A dash followed by a dash-free region that does not begin with "links"
      is not a match, so it survives the removal. */
  lemma RegionIsNoMatch(y: string)
    requires '-' !in y && !StartsWith(y, "links")
    ensures !StartsWith(['-'] + (y + LinksSuffix), LinksSuffix)
  {
    var s := ['-'] + (y + LinksSuffix);
    if |y| >= 5 {
      assert y[..5] == s[1..6];
    } else {
      assert s[|y| + 1] == '-' != LinksSuffix[|y| + 1];
    }
  }

  /** "<x>-<y>-links.csv" (a language and a region) has the token "<X>-<Y>". */
  lemma {:induction false} RegionLinksFileToken(x: string, y: string)
    requires '-' !in x && '-' !in y && !StartsWith(y, "links")
    ensures LocaleToken(x + "-" + y + "-links.csv") == Upper(x + "-" + y)
  {
    var tail := ['-'] + (y + LinksSuffix);
    var stem := x + tail;
    assert x + "-" + y + "-links.csv" == stem + ".csv";
    assert stem[|x|] == '-';
    CsvRoot(stem);
    RemoveAllKeepsPrefix(x, tail, LinksSuffix);
    RegionIsNoMatch(y);
    assert tail[1..] == y + LinksSuffix;
    assert RemoveAll(tail, LinksSuffix) == ['-'] + RemoveAll(y + LinksSuffix, LinksSuffix);
    RemoveAllKeepsPrefix(y, LinksSuffix, LinksSuffix);
    RemoveAllDropsMatch(LinksSuffix, []);
    assert LinksSuffix + [] == LinksSuffix;
    assert x + (['-'] + (y + [])) == x + "-" + y;
  }

  lemma BrazilianFileLocale()
    ensures DerivedLocale("pt-br-links.csv") == "PT-BR"
  {
    assert "pt-br-links.csv" == "pt" + "-" + "br" + "-links.csv";
    RegionLinksFileToken("pt", "br");
    UpperBrazil();
  }

  lemma UpperBrazil()
    ensures Upper("pt" + "-" + "br") == "PT-BR"
  {
    assert "pt" + "-" + "br" == "pt-br";
  }

  lemma FrenchFileLocale()
    ensures DerivedLocale("fr-links.csv") == "FR"
  {
    assert "fr-links.csv" == "fr" + "-links.csv";
    LinksFileToken("fr");
    assert Upper("fr") == "FR";
  }

  lemma CommonFileLocale()
    ensures LocaleToken("common-links.csv") == CommonToken
    ensures DerivedLocale("common-links.csv") == CommonLocaleSign
  {
    assert "common-links.csv" == "common" + "-links.csv";
    LinksFileToken("common");
    UpperCommon();
  }

  lemma UpperCommon()
    ensures Upper("common") == CommonToken
  {
    var u := Upper("common");
    assert u[0] == 'C' && u[1] == 'O' && u[2] == 'M' && u[3] == 'M' && u[4] == 'O' && u[5] == 'N';
  }

  /** "-links" is removed case-sensitively: "<x>-LINKS.csv" keeps its
      suffix, so "common-LINKS.csv" is not the common file. */
  lemma UpperCaseSuffixIsKept(x: string)
    requires '-' !in x
    ensures LocaleToken(x + "-LINKS.csv") == Upper(x + "-LINKS")
    ensures DerivedLocale(x + "-LINKS.csv") == Upper(x + "-LINKS")
  {
    UpperCaseSuffixToken(x);
    var u := Upper(x + "-LINKS");
    assert u[|x|] == '-';
    if |u| == |CommonToken| {
      assert CommonToken[|x|] != '-';
    }
  }

  lemma UpperCaseSuffixToken(x: string)
    requires '-' !in x
    ensures LocaleToken(x + "-LINKS.csv") == Upper(x + "-LINKS")
  {
    var stem := x + "-LINKS";
    assert x + "-LINKS.csv" == stem + ".csv";
    assert stem[|x|] == '-';
    CsvRoot(stem);
    RemoveAllKeepsPrefix(x, "-LINKS", LinksSuffix);
    UpperLinksIsNoMatch();
  }

  /** "-LINKS" holds no occurrence of "-links". */
  lemma UpperLinksIsNoMatch()
    ensures RemoveAll("-LINKS", LinksSuffix) == "-LINKS"
  {
    var tail := "-LINKS";
    assert !StartsWith(tail, LinksSuffix) by {
      assert tail[..6][1] == 'L';
    }
    assert tail[1..] == "LINKS" + [];
    RemoveAllKeepsPrefix("LINKS", [], LinksSuffix);
  }

  /** "-links" is removed wherever it occurs, not only at the end. */
  lemma InnerSuffixIsRemoved(a: string, b: string)
    requires '-' !in a && '-' !in b
    ensures LocaleToken(a + "-links" + b + ".csv") == Upper(a + b)
  {
    var stem := a + (LinksSuffix + b);
    assert a + "-links" + b + ".csv" == stem + ".csv";
    assert stem[|a|] == '-';
    CsvRoot(stem);
    RemoveAllKeepsPrefix(a, LinksSuffix + b, LinksSuffix);
    RemoveAllDropsMatch(LinksSuffix, b);
    RemoveAllKeepsPrefix(b, [], LinksSuffix);
    assert b + [] == b;
  }

  /** So "co-linksmmon.csv" is taken for the common file. */
  lemma InnerSuffixMakesCommonFile()
    ensures DerivedLocale("co-linksmmon.csv") == CommonLocaleSign
  {
    assert "co-linksmmon.csv" == "co" + "-links" + "mmon" + ".csv";
    InnerSuffixIsRemoved("co", "mmon");
    assert "co" + "mmon" == "common";
    UpperCommon();
  }

  /** A file named after the sign itself gets the sign as its locale. */
  lemma SignFileLocale()
    ensures LocaleToken("★.csv") == CommonLocaleSign
    ensures DerivedLocale("★.csv") == CommonLocaleSign
  {
    assert "★.csv" == "★" + ".csv";
    assert "★"[0] != '.';
    CsvRoot("★");
    assert Upper("★") == "★";
  }

  // ---------------------------------------------------------------------
  // Domain extraction

  /** `url.split("/")[2] if "//" in url else url` */
  function Domain(url: string): (r: string)
    ensures Contains(url, "//") ==> '/' !in r
  {
    if Contains(url, "//") then
      DoubleSlashSplits(url);
      SplitOnSpec(url, '/');
      SplitOn(url, '/')[2]
    else url
  }

  /** With "//" present the domain is the third "/"-separated part, which
      holds no "/", and the parts joined again give back the URL; without
      "//" the domain is the whole URL. */
  lemma DomainSpec(url: string)
    ensures !Contains(url, "//") ==> Domain(url) == url
    ensures Contains(url, "//") ==>
      |SplitOn(url, '/')| >= 3 && Domain(url) == SplitOn(url, '/')[2] && '/' !in Domain(url) &&
      JoinWith(SplitOn(url, '/'), '/') == url
  {
    if Contains(url, "//") {
      DoubleSlashSplits(url);
      SplitOnSpec(url, '/');
      JoinSplit(url, '/');
    }
  }

  /** "scheme://tail" splits into the scheme, an empty part, and the parts
      of the tail. */
  lemma AuthorityParts(scheme: string, tail: string)
    requires '/' !in scheme
    ensures Contains(scheme + "//" + tail, "//")
    ensures SplitOn(scheme + "//" + tail, '/') == [scheme, []] + SplitOn(tail, '/')
  {
    ContainsMiddle(scheme, "//", tail);
    assert scheme + "//" + tail == scheme + ['/'] + ([] + ['/'] + tail);
    SplitOnAfterFirst(scheme, [] + ['/'] + tail, '/');
    SplitOnAfterFirst([], tail, '/');
  }

  /** For "scheme://host" the domain is the host. */
  lemma DomainOfHost(scheme: string, host: string)
    requires '/' !in scheme && '/' !in host
    ensures Domain(scheme + "//" + host) == host
  {
    AuthorityParts(scheme, host);
    SplitOnWithout(host, '/');
  }

  /** For "scheme://host/rest" the domain is the host, whatever the rest. */
  lemma DomainOfHostPath(scheme: string, host: string, rest: string)
    requires '/' !in scheme && '/' !in host
    ensures Domain(scheme + "//" + host + "/" + rest) == host
  {
    var tail := host + "/" + rest;
    assert scheme + "//" + host + "/" + rest == scheme + "//" + tail;
    AuthorityParts(scheme, tail);
    SplitOnAfterFirst(host, rest, '/');
  }

  /** A URL without "//" is its own domain, slashes included. */
  lemma DomainWithoutScheme()
    ensures Domain("example.com/path") == "example.com/path"
  {
    var plain := "example.com/path";
    assert plain == JoinWith(["example.com", "path"], '/');
    SplitJoin(["example.com", "path"], '/');
    if Contains(plain, "//") {
      DoubleSlashSplits(plain);
    }
  }

  lemma DomainOfHttpsUrl()
    ensures Domain("https://example.com/path") == "example.com"
  {
    assert "https://example.com/path" == "https:" + "//" + "example.com" + "/" + "path";
    DomainOfHostPath("https:", "example.com", "path");
  }

  // ---------------------------------------------------------------------
  // Record ingestion

  /** `row.get(key, "")` */
  function Field(row: Row, key: string): string {
    if key in row then row[key] else ""
  }

  /** A row yields a record: it is not empty and the four required fields are
      non-empty once stripped. */
  predicate Kept(row: Row, cols: Columns) {
    row != map[] &&
    Strip(Field(row, cols.navType)) != "" && Strip(Field(row, cols.category)) != "" &&
    Strip(Field(row, cols.isEnabled)) != "" && Strip(Field(row, cols.url)) != ""
  }

  function RecordOf(row: Row, locale: string, cols: Columns): Website {
    Website(
      Strip(Field(row, cols.navType)), locale, Strip(Field(row, cols.category)),
      Strip(Field(row, cols.isEnabled)), Strip(Field(row, cols.url)),
      if cols.comment in row then Some(row[cols.comment]) else None)
  }

  /** The records of one file, row by row. */
  function FileRecords(rows: seq<Row>, locale: string, cols: Columns): seq<Website>
    decreases |rows|
  {
    if rows == [] then []
    else
      var row := rows[|rows| - 1];
      FileRecords(rows[..|rows| - 1], locale, cols) + (if Kept(row, cols) then [RecordOf(row, locale, cols)] else [])
  }

  /** The records of the selected files, file by file; files missing from the
      disk contribute nothing. */
  function Records(files: seq<string>, tables: map<string, seq<Row>>, cols: Columns): seq<Website>
    decreases |files|
  {
    if files == [] then []
    else
      var f := files[|files| - 1];
      Records(files[..|files| - 1], tables, cols) +
      (if f in tables then FileRecords(tables[f], DerivedLocale(f), cols) else [])
  }

  /** A kept row gives a record whose four required fields are non-empty and
      carry no surrounding whitespace, and whose comment is the raw cell. */
  lemma RecordIsNormalized(row: Row, locale: string, cols: Columns)
    requires Kept(row, cols)
    ensures var w := RecordOf(row, locale, cols);
      w.navType != "" && w.category != "" && w.isEnabled != "" && w.url != "" &&
      Strip(w.navType) == w.navType && Strip(w.category) == w.category &&
      Strip(w.isEnabled) == w.isEnabled && Strip(w.url) == w.url &&
      w.locale == locale &&
      (w.comment.Some? <==> cols.comment in row) &&
      (w.comment.Some? ==> w.comment.value == row[cols.comment])
  {
    StripIdempotent(Field(row, cols.navType));
    StripIdempotent(Field(row, cols.category));
    StripIdempotent(Field(row, cols.isEnabled));
    StripIdempotent(Field(row, cols.url));
  }

  /** A row is dropped exactly when it is empty or one of its required fields
      is missing or all whitespace. */
  lemma DroppedRowIff(row: Row, cols: Columns)
    ensures !Kept(row, cols) <==>
      row == map[] ||
      (forall k :: 0 <= k < |Field(row, cols.navType)| ==> IsSpace(Field(row, cols.navType)[k])) ||
      (forall k :: 0 <= k < |Field(row, cols.category)| ==> IsSpace(Field(row, cols.category)[k])) ||
      (forall k :: 0 <= k < |Field(row, cols.isEnabled)| ==> IsSpace(Field(row, cols.isEnabled)[k])) ||
      (forall k :: 0 <= k < |Field(row, cols.url)| ==> IsSpace(Field(row, cols.url)[k]))
  {
    StripEmptyIff(Field(row, cols.navType));
    StripEmptyIff(Field(row, cols.category));
    StripEmptyIff(Field(row, cols.isEnabled));
    StripEmptyIff(Field(row, cols.url));
  }

  /** A file yields at most one record per row. */
  lemma {:induction false} FileRecordsBound(rows: seq<Row>, locale: string, cols: Columns)
    ensures |FileRecords(rows, locale, cols)| <= |rows|
    decreases |rows|
  {
    if rows != [] {
      FileRecordsBound(rows[..|rows| - 1], locale, cols);
    }
  }

  /** A file whose rows are all kept yields exactly one record per row. */
  lemma {:induction false} FileRecordsAllKept(rows: seq<Row>, locale: string, cols: Columns)
    requires forall k :: 0 <= k < |rows| ==> Kept(rows[k], cols)
    ensures |FileRecords(rows, locale, cols)| == |rows|
    decreases |rows|
  {
    if rows != [] {
      var init := rows[..|rows| - 1];
      forall k | 0 <= k < |init|
        ensures Kept(init[k], cols)
      {
        assert init[k] == rows[k];
      }
      FileRecordsAllKept(init, locale, cols);
      assert Kept(rows[|rows| - 1], cols);
    }
  }

  /** A dropped row makes the file yield fewer records than rows. */
  lemma {:induction false} FileRecordsDropRow(rows: seq<Row>, locale: string, cols: Columns, k: int)
    requires 0 <= k < |rows| && !Kept(rows[k], cols)
    ensures |FileRecords(rows, locale, cols)| < |rows|
    decreases |rows|
  {
    var init := rows[..|rows| - 1];
    if k < |rows| - 1 {
      assert init[k] == rows[k];
      FileRecordsDropRow(init, locale, cols, k);
    } else {
      FileRecordsBound(init, locale, cols);
    }
  }

  /** The records of a file are exactly the records of its kept rows, in the
      order of the rows. */
  lemma {:induction false} FileRecordsAreKeptRecords(rows: seq<Row>, locale: string, cols: Columns)
    ensures FileRecords(rows, locale, cols)
         == Map(Filter(rows, (r: Row) => Kept(r, cols)), (r: Row) => RecordOf(r, locale, cols))
    decreases |rows|
  {
    var keep, rec := (r: Row) => Kept(r, cols), (r: Row) => RecordOf(r, locale, cols);
    if rows != [] {
      var init, last := rows[..|rows| - 1], rows[|rows| - 1];
      FileRecordsAreKeptRecords(init, locale, cols);
      assert init + [last] == rows;
      FilterSnoc(init, last, keep);
      if keep(last) {
        MapSnoc(Filter(init, keep), last, rec);
      } else {
        assert Filter(init, keep) + [] == Filter(init, keep);
      }
    }
  }

  /** A file yields exactly as many records as it has kept rows. */
  lemma {:induction false} FileRecordsCount(rows: seq<Row>, locale: string, cols: Columns)
    ensures |FileRecords(rows, locale, cols)| == |Filter(rows, (r: Row) => Kept(r, cols))|
    decreases |rows|
  {
    if rows != [] {
      var init := rows[..|rows| - 1];
      FileRecordsCount(init, locale, cols);
      assert init + [rows[|rows| - 1]] == rows;
      FilterSnoc(init, rows[|rows| - 1], (r: Row) => Kept(r, cols));
    }
  }

  /** Every record of a file is built from one of its kept rows. */
  lemma {:induction false} FileRecordsSound(rows: seq<Row>, locale: string, cols: Columns, w: Website)
    requires w in FileRecords(rows, locale, cols)
    ensures exists k :: 0 <= k < |rows| && Kept(rows[k], cols) && w == RecordOf(rows[k], locale, cols)
    decreases |rows|
  {
    var init := rows[..|rows| - 1];
    if w in FileRecords(init, locale, cols) {
      FileRecordsSound(init, locale, cols, w);
      var k :| 0 <= k < |init| && Kept(init[k], cols) && w == RecordOf(init[k], locale, cols);
      assert rows[k] == init[k];
    }
  }

  /** Every kept row of a file yields its record. */
  lemma {:induction false} FileRecordsComplete(rows: seq<Row>, locale: string, cols: Columns, k: int)
    requires 0 <= k < |rows| && Kept(rows[k], cols)
    ensures RecordOf(rows[k], locale, cols) in FileRecords(rows, locale, cols)
    decreases |rows|
  {
    if k < |rows| - 1 {
      var init := rows[..|rows| - 1];
      assert init[k] == rows[k];
      FileRecordsComplete(init, locale, cols, k);
    }
  }

  /** Every record comes from a selected file present on disk, and carries
      that file's derived locale. */
  lemma {:induction false} RecordsSound(files: seq<string>, tables: map<string, seq<Row>>, cols: Columns, w: Website)
    requires w in Records(files, tables, cols)
    ensures exists i ::
      0 <= i < |files| && files[i] in tables && w in FileRecords(tables[files[i]], DerivedLocale(files[i]), cols)
    decreases |files|
  {
    var init := files[..|files| - 1];
    if w in Records(init, tables, cols) {
      RecordsSound(init, tables, cols, w);
      var i :| 0 <= i < |init| && init[i] in tables && w in FileRecords(tables[init[i]], DerivedLocale(init[i]), cols);
      assert files[i] == init[i];
    }
  }

  /** Every record of a selected file present on disk is in the result. */
  lemma {:induction false} RecordsComplete(files: seq<string>, tables: map<string, seq<Row>>, cols: Columns, i: int, w: Website)
    requires 0 <= i < |files| && files[i] in tables
    requires w in FileRecords(tables[files[i]], DerivedLocale(files[i]), cols)
    ensures w in Records(files, tables, cols)
    decreases |files|
  {
    if i < |files| - 1 {
      var init := files[..|files| - 1];
      assert init[i] == files[i];
      RecordsComplete(init, tables, cols, i, w);
    }
  }

  /** One more row extends a file's records by that row's record, if kept. */
  lemma FileRecordsStep(rows: seq<Row>, j: int, locale: string, cols: Columns)
    requires 0 <= j < |rows|
    ensures FileRecords(rows[..j + 1], locale, cols) ==
      FileRecords(rows[..j], locale, cols) + (if Kept(rows[j], cols) then [RecordOf(rows[j], locale, cols)] else [])
  {
    assert rows[..j + 1][..j] == rows[..j];
  }

  /** One more file extends the records by that file's records, if present. */
  lemma RecordsStep(files: seq<string>, i: int, tables: map<string, seq<Row>>, cols: Columns)
    requires 0 <= i < |files|
    ensures Records(files[..i + 1], tables, cols) ==
      Records(files[..i], tables, cols) +
      (if files[i] in tables then FileRecords(tables[files[i]], DerivedLocale(files[i]), cols) else [])
  {
    assert files[..i + 1][..i] == files[..i];
  }

  /** Records follow the order of the selected files. */
  lemma {:induction false} RecordsConcat(a: seq<string>, b: seq<string>, tables: map<string, seq<Row>>, cols: Columns)
    ensures Records(a + b, tables, cols) == Records(a, tables, cols) + Records(b, tables, cols)
    decreases |b|
  {
    if b == [] {
      assert a + b == a;
    } else {
      var init := b[..|b| - 1];
      assert (a + b)[..|a + b| - 1] == a + init;
      RecordsConcat(a, init, tables, cols);
    }
  }

  // ---------------------------------------------------------------------
  // Aggregates

  /** The locale tokens other than "COMMON" of the files present on disk. */
  function LocalesOf(files: seq<string>, tables: map<string, seq<Row>>): set<string>
    decreases |files|
  {
    if files == [] then {}
    else
      var f := files[|files| - 1];
      LocalesOf(files[..|files| - 1], tables) +
      (if f in tables && LocaleToken(f) != CommonToken then {LocaleToken(f)} else {})
  }

  /** Some file present on disk is the common file. */
  function GlobalOf(files: seq<string>, tables: map<string, seq<Row>>): bool
    decreases |files|
  {
    if files == [] then false
    else
      var f := files[|files| - 1];
      GlobalOf(files[..|files| - 1], tables) || (f in tables && LocaleToken(f) == CommonToken)
  }

  /** The domain a row contributes: that of its stripped URL cell. */
  function RowDomain(row: Row, urlKey: string): string {
    Domain(Strip(Field(row, urlKey)))
  }

  /** The domain of every non-empty row, valid or not. */
  function RowDomains(rows: seq<Row>, urlKey: string): set<string>
    decreases |rows|
  {
    if rows == [] then {}
    else
      var row := rows[|rows| - 1];
      RowDomains(rows[..|rows| - 1], urlKey) + (if row != map[] then {RowDomain(row, urlKey)} else {})
  }

  function DomainsOf(files: seq<string>, tables: map<string, seq<Row>>, urlKey: string): set<string>
    decreases |files|
  {
    if files == [] then {}
    else
      var f := files[|files| - 1];
      DomainsOf(files[..|files| - 1], tables, urlKey) + (if f in tables then RowDomains(tables[f], urlKey) else {})
  }

  /** One more file extends each part of the aggregate by that file's share. */
  lemma AggregateStep(files: seq<string>, i: int, tables: map<string, seq<Row>>, urlKey: string)
    requires 0 <= i < |files|
    ensures LocalesOf(files[..i + 1], tables) == LocalesOf(files[..i], tables) +
      (if files[i] in tables && LocaleToken(files[i]) != CommonToken then {LocaleToken(files[i])} else {})
    ensures GlobalOf(files[..i + 1], tables) ==
      (GlobalOf(files[..i], tables) || (files[i] in tables && LocaleToken(files[i]) == CommonToken))
    ensures DomainsOf(files[..i + 1], tables, urlKey) == DomainsOf(files[..i], tables, urlKey) +
      (if files[i] in tables then RowDomains(tables[files[i]], urlKey) else {})
  {
    assert files[..i + 1][..i] == files[..i];
  }

  /** One more row extends a file's domains by that row's domain, if the row
      is not empty. */
  lemma RowDomainsStep(rows: seq<Row>, j: int, urlKey: string)
    requires 0 <= j < |rows|
    ensures RowDomains(rows[..j + 1], urlKey) ==
      RowDomains(rows[..j], urlKey) + (if rows[j] != map[] then {RowDomain(rows[j], urlKey)} else {})
  {
    assert rows[..j + 1][..j] == rows[..j];
  }

  /** Every reported locale is the token, other than "COMMON", of a file
      present on disk. */
  lemma {:induction false} LocalesSound(files: seq<string>, tables: map<string, seq<Row>>, x: string)
    requires x in LocalesOf(files, tables)
    ensures x != CommonToken
    ensures exists i :: 0 <= i < |files| && files[i] in tables && LocaleToken(files[i]) == x
    decreases |files|
  {
    var init := files[..|files| - 1];
    if x in LocalesOf(init, tables) {
      LocalesSound(init, tables, x);
      var i :| 0 <= i < |init| && init[i] in tables && LocaleToken(init[i]) == x;
      assert files[i] == init[i];
    }
  }

  /** The token of every present file other than the common file is reported. */
  lemma {:induction false} LocalesComplete(files: seq<string>, tables: map<string, seq<Row>>, i: int)
    requires 0 <= i < |files| && files[i] in tables && LocaleToken(files[i]) != CommonToken
    ensures LocaleToken(files[i]) in LocalesOf(files, tables)
    decreases |files|
  {
    if i < |files| - 1 {
      var init := files[..|files| - 1];
      assert init[i] == files[i];
      LocalesComplete(init, tables, i);
    }
  }

  /** `include_global` holds exactly when a present file has the token "COMMON". */
  lemma {:induction false} GlobalIff(files: seq<string>, tables: map<string, seq<Row>>)
    ensures GlobalOf(files, tables) <==>
      exists i :: 0 <= i < |files| && files[i] in tables && LocaleToken(files[i]) == CommonToken
    decreases |files|
  {
    if files != [] {
      var init := files[..|files| - 1];
      GlobalIff(init, tables);
      if GlobalOf(init, tables) {
        var i :| 0 <= i < |init| && init[i] in tables && LocaleToken(init[i]) == CommonToken;
        assert files[i] == init[i];
      }
      if exists i :: 0 <= i < |files| && files[i] in tables && LocaleToken(files[i]) == CommonToken {
        var i :| 0 <= i < |files| && files[i] in tables && LocaleToken(files[i]) == CommonToken;
        if i < |init| {
          assert init[i] == files[i];
        }
      }
    }
  }

  /** Every domain of a file comes from one of its non-empty rows. */
  lemma {:induction false} RowDomainsSound(rows: seq<Row>, urlKey: string, d: string)
    requires d in RowDomains(rows, urlKey)
    ensures exists k :: 0 <= k < |rows| && rows[k] != map[] && d == RowDomain(rows[k], urlKey)
    decreases |rows|
  {
    var init := rows[..|rows| - 1];
    if d in RowDomains(init, urlKey) {
      RowDomainsSound(init, urlKey, d);
      var k :| 0 <= k < |init| && init[k] != map[] && d == RowDomain(init[k], urlKey);
      assert rows[k] == init[k];
    }
  }

  /** Every non-empty row of a file contributes its domain, whether or not
      the row would be kept as a record. */
  lemma {:induction false} RowDomainsComplete(rows: seq<Row>, urlKey: string, k: int)
    requires 0 <= k < |rows| && rows[k] != map[]
    ensures RowDomain(rows[k], urlKey) in RowDomains(rows, urlKey)
    decreases |rows|
  {
    if k < |rows| - 1 {
      var init := rows[..|rows| - 1];
      assert init[k] == rows[k];
      RowDomainsComplete(init, urlKey, k);
    }
  }

  /** Every reported domain comes from a selected file present on disk. */
  lemma {:induction false} DomainsSound(files: seq<string>, tables: map<string, seq<Row>>, urlKey: string, d: string)
    requires d in DomainsOf(files, tables, urlKey)
    ensures exists i :: 0 <= i < |files| && files[i] in tables && d in RowDomains(tables[files[i]], urlKey)
    decreases |files|
  {
    var init := files[..|files| - 1];
    if d in DomainsOf(init, tables, urlKey) {
      DomainsSound(init, tables, urlKey, d);
      var i :| 0 <= i < |init| && init[i] in tables && d in RowDomains(tables[init[i]], urlKey);
      assert files[i] == init[i];
    }
  }

  /** Every domain of a selected file present on disk is reported. */
  lemma {:induction false} DomainsComplete(files: seq<string>, tables: map<string, seq<Row>>, urlKey: string, i: int, d: string)
    requires 0 <= i < |files| && files[i] in tables && d in RowDomains(tables[files[i]], urlKey)
    ensures d in DomainsOf(files, tables, urlKey)
    decreases |files|
  {
    if i < |files| - 1 {
      var init := files[..|files| - 1];
      assert init[i] == files[i];
      DomainsComplete(init, tables, urlKey, i, d);
    }
  }

  /** A non-empty row without a URL adds the empty domain. */
  lemma EmptyUrlGivesEmptyDomain(files: seq<string>, tables: map<string, seq<Row>>, urlKey: string, i: int, k: int)
    requires 0 <= i < |files| && files[i] in tables
    requires 0 <= k < |tables[files[i]]| && tables[files[i]][k] != map[]
    requires Strip(Field(tables[files[i]][k], urlKey)) == ""
    ensures "" in DomainsOf(files, tables, urlKey)
  {
    assert !Contains("", "//");
    RowDomainsComplete(tables[files[i]], urlKey, k);
    DomainsComplete(files, tables, urlKey, i, "");
  }

  /** A file named "★.csv" is not the common file, so the sign itself is
      reported as a locale. */
  lemma SignFileIsReportedAsLocale(tables: map<string, seq<Row>>)
    requires "★.csv" in tables
    ensures CommonLocaleSign in LocalesOf(["★.csv"], tables)
    ensures !GlobalOf(["★.csv"], tables)
  {
    SignFileLocale();
    assert ["★.csv"][..0] == [];
  }

  /** Every record's locale is reported by the aggregate: as a locale, or as
      the sign when the common file is included. */
  lemma RecordLocaleIsReported(files: seq<string>, tables: map<string, seq<Row>>, cols: Columns, w: Website)
    requires w in Records(files, tables, cols)
    ensures w.locale in LocalesOf(files, tables) || (w.locale == CommonLocaleSign && GlobalOf(files, tables))
  {
    RecordsSound(files, tables, cols, w);
    var i :| 0 <= i < |files| && files[i] in tables && w in FileRecords(tables[files[i]], DerivedLocale(files[i]), cols);
    FileRecordsSound(tables[files[i]], DerivedLocale(files[i]), cols, w);
    if LocaleToken(files[i]) == CommonToken {
      GlobalIff(files, tables);
    } else {
      LocalesComplete(files, tables, i);
    }
  }

  // ---------------------------------------------------------------------
  // The loader and its aggregate fields

  class WebsiteLoader {
    var locales: set<string>
    var domains: set<string>
    var includeGlobal: bool

    constructor ()
      ensures locales == {} && domains == {} && !includeGlobal
    {
      locales, domains, includeGlobal := {}, {}, false;
    }

    /** The body of the row loop of `load_websites`: an empty row, or one
        with a required field that is missing or blank once stripped, yields
        nothing; any other row yields its record. */
    static method ReadRow(row: Row, locale: string, cols: Columns) returns (website: Option<Website>)
      ensures website.Some? <==> Kept(row, cols)
      ensures website.Some? ==> website.value == RecordOf(row, locale, cols)
    {
      if row == map[] {
        return None;
      }
      var navType := Strip(Field(row, cols.navType));
      var category := Strip(Field(row, cols.category));
      var isEnabled := Strip(Field(row, cols.isEnabled));
      var url := Strip(Field(row, cols.url));
      var comment := if cols.comment in row then Some(row[cols.comment]) else None;
      if navType == "" || category == "" || isEnabled == "" || url == "" {
        return None;
      }
      return Some(Website(navType, locale, category, isEnabled, url, comment));
    }

    /** The row loop of `load_websites` for one file: the records of its
        kept rows, in row order. */
    static method ReadRows(rows: seq<Row>, locale: string, cols: Columns) returns (records: seq<Website>)
      ensures records == FileRecords(rows, locale, cols)
    {
      records := [];
      for j := 0 to |rows|
        invariant records == FileRecords(rows[..j], locale, cols)
      {
        FileRecordsStep(rows, j, locale, cols);
        var website := ReadRow(rows[j], locale, cols);
        if website.Some? {
          records := records + [website.value];
        }
      }
      assert rows[..|rows|] == rows;
    }

    /** `load_websites`: one record per kept row of every selected file that
        still exists, in selection order and then row order. */
    static method LoadWebsites(dir: CsvDir, enabled: seq<string>, cols: Columns) returns (websites: seq<Website>)
      ensures websites == Records(SelectedCsvFiles(dir.listing, enabled), dir.tables, cols)
    {
      websites := [];
      var selected := SelectedCsvFiles(dir.listing, enabled);
      for i := 0 to |selected|
        invariant websites == Records(selected[..i], dir.tables, cols)
      {
        var path := selected[i];
        RecordsStep(selected, i, dir.tables, cols);
        if path !in dir.tables {
          continue;
        }
        var locale := LocaleToken(path);
        if locale == CommonToken {
          locale := CommonLocaleSign;
        }
        var records := ReadRows(dir.tables[path], locale, cols);
        websites := websites + records;
      }
      assert selected[..|selected|] == selected;
    }

    /** The row loop of `get_domains_data` for one file: adds the domain of
        every non-empty row and changes nothing else. */
    method AddFileDomains(rows: seq<Row>, urlKey: string)
      modifies this
      ensures domains == old(domains) + RowDomains(rows, urlKey)
      ensures locales == old(locales) && includeGlobal == old(includeGlobal)
    {
      for j := 0 to |rows|
        invariant domains == old(domains) + RowDomains(rows[..j], urlKey)
        invariant locales == old(locales) && includeGlobal == old(includeGlobal)
      {
        var row := rows[j];
        RowDomainsStep(rows, j, urlKey);
        if row == map[] {
          continue;
        }
        var url := Strip(Field(row, urlKey));
        var domain := Domain(url);
        domains := domains + {domain};
      }
      assert rows[..|rows|] == rows;
    }

    /** `get_domains_data`: discards the previous aggregate and recomputes it
        from the selected files that still exist. */
    method GetDomainsData(dir: CsvDir, enabled: seq<string>, cols: Columns)
      returns (locs: set<string>, doms: set<string>, global: bool)
      modifies this
      ensures locales == LocalesOf(SelectedCsvFiles(dir.listing, enabled), dir.tables)
      ensures domains == DomainsOf(SelectedCsvFiles(dir.listing, enabled), dir.tables, cols.url)
      ensures includeGlobal == GlobalOf(SelectedCsvFiles(dir.listing, enabled), dir.tables)
      ensures locs == locales && doms == domains && global == includeGlobal
    {
      var selected := SelectedCsvFiles(dir.listing, enabled);
      locales := {};
      domains := {};
      includeGlobal := false;
      for i := 0 to |selected|
        invariant locales == LocalesOf(selected[..i], dir.tables)
        invariant includeGlobal == GlobalOf(selected[..i], dir.tables)
        invariant domains == DomainsOf(selected[..i], dir.tables, cols.url)
      {
        var path := selected[i];
        AggregateStep(selected, i, dir.tables, cols.url);
        if path !in dir.tables {
          continue;
        }
        var locale := LocaleToken(path);
        if locale == CommonToken {
          includeGlobal := true;
        } else {
          locales := locales + {locale};
        }
        AddFileDomains(dir.tables[path], cols.url);
      }
      assert selected[..|selected|] == selected;
      locs, doms, global := locales, domains, includeGlobal;
    }
  }
}

=== FILE: pystr.dfy ===
/** The Python `str` and `os.path` operations the website loader relies on,
    each defined as CPython computes it on the strings the loader handles. */
module PyStr {

  /** `c.isspace()`: the characters `str.strip()` removes. */
  predicate IsSpace(c: char) {
    c == ' ' || '\t' <= c <= '\r' || '\U{1C}' <= c <= '\U{1F}' || c == '\U{85}' || c == '\U{A0}' ||
    c == '\U{1680}' || '\U{2000}' <= c <= '\U{200A}' || c == '\U{2028}' || c == '\U{2029}' ||
    c == '\U{202F}' || c == '\U{205F}' || c == '\U{3000}'
  }

  function StripLeft(s: string): string
    decreases |s|
  {
    if s != [] && IsSpace(s[0]) then StripLeft(s[1..]) else s
  }

  function StripRight(s: string): string
    decreases |s|
  {
    if s != [] && IsSpace(s[|s| - 1]) then StripRight(s[..|s| - 1]) else s
  }

  /** `lstrip()` removes exactly the leading whitespace. */
  lemma {:induction false} StripLeftSpec(s: string)
    ensures var r := StripLeft(s);
      |r| <= |s| && r == s[|s| - |r|..] &&
      (forall k :: 0 <= k < |s| - |r| ==> IsSpace(s[k])) &&
      (r == [] || !IsSpace(r[0]))
    decreases |s|
  {
    if s != [] && IsSpace(s[0]) {
      StripLeftSpec(s[1..]);
    }
  }

  /** `rstrip()` removes exactly the trailing whitespace. */
  lemma {:induction false} StripRightSpec(s: string)
    ensures var r := StripRight(s);
      |r| <= |s| && r == s[..|r|] &&
      (forall k :: |r| <= k < |s| ==> IsSpace(s[k])) &&
      (r == [] || !IsSpace(r[|r| - 1]))
    decreases |s|
  {
    if s != [] && IsSpace(s[|s| - 1]) {
      StripRightSpec(s[..|s| - 1]);
    }
  }

  /** `r` is `s` with whitespace only removed before position `i` and after
      position `i + |r|`. */
  ghost predicate TrimmedAt(s: string, r: string, i: int) {
    0 <= i && i + |r| <= |s| && s[i..i + |r|] == r &&
    (forall k :: 0 <= k < i ==> IsSpace(s[k])) &&
    (forall k :: i + |r| <= k < |s| ==> IsSpace(s[k]))
  }

  /** `s.strip()`: all leading and all trailing whitespace removed. */
  function Strip(s: string): string {
    StripRight(StripLeft(s))
  }

  /** The stripped value is a slice of `s` that neither starts nor ends with
      whitespace, and only whitespace lies outside it. */
  lemma StripSpec(s: string)
    ensures var r := Strip(s);
      (r == [] || (!IsSpace(r[0]) && !IsSpace(r[|r| - 1]))) &&
      exists i :: TrimmedAt(s, r, i)
  {
    var l := StripLeft(s);
    StripLeftSpec(s);
    StripRightSpec(l);
    var r := StripRight(l);
    assert TrimmedAt(s, r, |s| - |l|);
  }

  /** Stripping twice is stripping once. */
  lemma StripIdempotent(s: string)
    ensures Strip(Strip(s)) == Strip(s)
  {
    var t := Strip(s);
    StripSpec(s);
    assert StripLeft(t) == t;
    assert StripRight(t) == t;
  }

  /** Every stripped value is its own stripped form. */
  lemma StripAllIdempotent()
    ensures forall s :: Strip(Strip(s)) == Strip(s)
  {
    forall s {
      StripIdempotent(s);
    }
  }

  /** A stripped value is empty exactly when the input is all whitespace. */
  lemma StripEmptyIff(s: string)
    ensures Strip(s) == [] <==> forall k :: 0 <= k < |s| ==> IsSpace(s[k])
  {
    StripSpec(s);
    var i :| TrimmedAt(s, Strip(s), i);
    if Strip(s) != [] {
      assert !IsSpace(s[i]);
    }
  }

  function UpperChar(c: char): char {
    if 'a' <= c <= 'z' then (c as int - 32) as char else c
  }

  /** `s.upper()` on ASCII letters; every other character is left unchanged. */
  function Upper(s: string): string {
    seq(|s|, k requires 0 <= k < |s| => UpperChar(s[k]))
  }

  /** Upper-casing keeps the length, leaves no lower-case ASCII letter and
      changes nothing that is already upper-cased. */
  lemma UpperProperties(s: string)
    ensures |Upper(s)| == |s|
    ensures forall k :: 0 <= k < |s| ==> !('a' <= Upper(s)[k] <= 'z')
    ensures forall k :: 0 <= k < |s| && !('a' <= s[k] <= 'z') ==> Upper(s)[k] == s[k]
    ensures Upper(Upper(s)) == Upper(s)
  {
  }

  predicate StartsWith(s: string, p: string) {
    |p| <= |s| && s[..|p|] == p
  }

  predicate EndsWith(s: string, p: string) {
    |p| <= |s| && s[|s| - |p|..] == p
  }

  /** `p in s`: `p` occurs in `s` as a contiguous substring. */
  predicate Contains(s: string, p: string)
    decreases |s|
  {
    StartsWith(s, p) || (s != [] && Contains(s[1..], p))
  }

  /** `p` occurs in `a + p + b`. */
  lemma {:induction false} ContainsMiddle(a: string, p: string, b: string)
    ensures Contains(a + p + b, p)
    decreases |a|
  {
    if a == [] {
      assert (a + p + b)[..|p|] == p;
    } else {
      assert (a + p + b)[1..] == a[1..] + p + b;
      ContainsMiddle(a[1..], p, b);
    }
  }

  /** `s.replace(p, "")`: a single left-to-right pass that deletes each
      non-overlapping occurrence of `p`. */
  function RemoveAll(s: string, p: string): (r: string)
    requires p != []
    ensures |r| <= |s|
    decreases |s|
  {
    if s == [] then []
    else if StartsWith(s, p) then RemoveAll(s[|p|..], p)
    else [s[0]] + RemoveAll(s[1..], p)
  }

  /** A string in which `p` does not occur is left unchanged. */
  lemma {:induction false} RemoveAllAbsent(s: string, p: string)
    requires p != [] && !Contains(s, p)
    ensures RemoveAll(s, p) == s
    decreases |s|
  {
    if s != [] {
      RemoveAllAbsent(s[1..], p);
      assert [s[0]] + s[1..] == s;
    }
  }

  /** A prefix that cannot start an occurrence of `p` is kept as it is. */
  lemma {:induction false} RemoveAllKeepsPrefix(a: string, b: string, p: string)
    requires p != [] && p[0] !in a
    ensures RemoveAll(a + b, p) == a + RemoveAll(b, p)
    decreases |a|
  {
    if a != [] {
      var s := a + b;
      assert s[0] == a[0];
      assert !StartsWith(s, p) by {
        if |p| <= |s| {
          assert s[..|p|][0] == a[0];
        }
      }
      assert s[1..] == a[1..] + b;
      assert RemoveAll(s, p) == [a[0]] + RemoveAll(a[1..] + b, p);
      RemoveAllKeepsPrefix(a[1..], b, p);
      assert [a[0]] + (a[1..] + RemoveAll(b, p)) == a + RemoveAll(b, p);
    } else {
      assert a + b == b;
    }
  }

  /** An occurrence of `p` at the front is deleted and scanning resumes after it. */
  lemma RemoveAllDropsMatch(p: string, b: string)
    requires p != []
    ensures RemoveAll(p + b, p) == RemoveAll(b, p)
  {
    assert (p + b)[..|p|] == p;
    assert (p + b)[|p|..] == b;
  }

  /** "links" holds no occurrence of "-links". */
  lemma LinksHasNoDash()
    ensures RemoveAll("links", "-links") == "links"
  {
    RemoveAllKeepsPrefix("links", [], "-links");
    assert "links" + [] == "links";
  }

  /** Deletion is a single pass: an occurrence formed by the deletion itself
      survives (here "--linkslinks" becomes "-links"). */
  lemma RemoveAllIsSinglePass()
    ensures RemoveAll("--linkslinks", "-links") == "-links"
  {
    var s := "--linkslinks";
    assert !StartsWith(s, "-links") by {
      assert s[..6][1] == '-' && "-links"[1] == 'l';
    }
    assert s[1..] == "-links" + "links";
    assert RemoveAll(s, "-links") == ['-'] + RemoveAll("-links" + "links", "-links");
    RemoveAllDropsMatch("-links", "links");
    LinksHasNoDash();
  }

  /** Index of the last `c` in `s`, or -1 (`s.rfind(c)`). */
  function LastIndexOf(s: string, c: char): (r: int)
    ensures -1 <= r < |s|
    ensures r >= 0 ==> s[r] == c
    ensures forall k :: r < k < |s| ==> s[k] != c
  {
    if s == [] then -1
    else if s[|s| - 1] == c then |s| - 1
    else LastIndexOf(s[..|s| - 1], c)
  }

  /** `os.path.splitext(name)[0]` for a name without a directory part: the
      text before the last dot, unless only dots precede that dot. */
  function SplitExtRoot(name: string): string {
    var d := LastIndexOf(name, '.');
    if d > 0 && exists k :: 0 <= k < d && name[k] != '.' then name[..d] else name
  }

  /** The root of `x + ".csv"` is `x` whenever `x` holds a character other than a dot. */
  lemma CsvRoot(x: string)
    requires exists k :: 0 <= k < |x| && x[k] != '.'
    ensures SplitExtRoot(x + ".csv") == x
  {
    var s := x + ".csv";
    var d := LastIndexOf(s, '.');
    assert s[|x|] == '.';
    assert s[|x| + 1] == 'c' && s[|x| + 2] == 's' && s[|x| + 3] == 'v';
    assert d == |x|;
    var k :| 0 <= k < |x| && x[k] != '.';
    assert s[k] == x[k];
  }

  /** A name made only of dots and ".csv" has no extension to split off. */
  lemma HiddenCsvRoot()
    ensures SplitExtRoot(".csv") == ".csv"
  {
    var s := ".csv";
    assert s[0] == '.' && s[1] == 'c' && s[2] == 's' && s[3] == 'v';
    assert LastIndexOf(s, '.') == 0;
  }

  /** `s.split(sep)` for a single-character separator. */
  function SplitOn(s: string, sep: char): (r: seq<string>)
    ensures r != []
    decreases |s|
  {
    if s == [] then [[]]
    else
      var rest := SplitOn(s[1..], sep);
      if s[0] == sep then [[]] + rest else [[s[0]] + rest[0]] + rest[1..]
  }

  /** There is one part more than there are separators, and no part holds
      the separator. */
  lemma {:induction false} SplitOnSpec(s: string, sep: char)
    ensures |SplitOn(s, sep)| == multiset(s)[sep] + 1
    ensures forall k :: 0 <= k < |SplitOn(s, sep)| ==> sep !in SplitOn(s, sep)[k]
    decreases |s|
  {
    if s != [] {
      SplitOnSpec(s[1..], sep);
      assert s == [s[0]] + s[1..];
      var rest := SplitOn(s[1..], sep);
      var r := SplitOn(s, sep);
      if s[0] != sep {
        forall k | 0 <= k < |r|
          ensures sep !in r[k]
        {
          if k > 0 {
            assert r[k] == rest[k];
          }
        }
      } else {
        forall k | 0 <= k < |r|
          ensures sep !in r[k]
        {
          if k > 0 {
            assert r[k] == rest[k - 1];
          }
        }
      }
    }
  }

  /** `sep.join(parts)` */
  function JoinWith(parts: seq<string>, sep: char): string
    requires parts != []
  {
    if |parts| == 1 then parts[0] else parts[0] + [sep] + JoinWith(parts[1..], sep)
  }

  /** Splitting and joining again gives back the string. */
  lemma {:induction false} JoinSplit(s: string, sep: char)
    ensures JoinWith(SplitOn(s, sep), sep) == s
  {
    if s != [] {
      var rest := SplitOn(s[1..], sep);
      JoinSplit(s[1..], sep);
      JoinWithCons(s[0], rest, sep);
    }
  }

  /** One step of `JoinSplit`: putting a character in front of the split. */
  lemma JoinWithCons(c: char, rest: seq<string>, sep: char)
    requires rest != []
    ensures c == sep ==> JoinWith([[]] + rest, sep) == [c] + JoinWith(rest, sep)
    ensures c != sep ==> JoinWith([[c] + rest[0]] + rest[1..], sep) == [c] + JoinWith(rest, sep)
  {
    assert ([[]] + rest)[1..] == rest;
    var r := [[c] + rest[0]] + rest[1..];
    assert r[1..] == rest[1..];
  }

  /** Joining parts free of the separator and splitting again gives back the parts. */
  lemma {:induction false} SplitJoin(parts: seq<string>, sep: char)
    requires parts != []
    requires forall k :: 0 <= k < |parts| ==> sep !in parts[k]
    ensures SplitOn(JoinWith(parts, sep), sep) == parts
    decreases |parts|
  {
    if |parts| == 1 {
      SplitOnWithout(parts[0], sep);
    } else {
      SplitJoin(parts[1..], sep);
      SplitOnAfterFirst(parts[0], JoinWith(parts[1..], sep), sep);
      assert [parts[0]] + parts[1..] == parts;
    }
  }

  /** A string without the separator splits into itself. */
  lemma {:induction false} SplitOnWithout(s: string, sep: char)
    requires sep !in s
    ensures SplitOn(s, sep) == [s]
  {
    if s != [] {
      SplitOnWithout(s[1..], sep);
      assert [s[0]] + s[1..] == s;
    }
  }

  /** The first separator ends the first part. */
  lemma {:induction false} SplitOnAfterFirst(a: string, b: string, sep: char)
    requires sep !in a
    ensures SplitOn(a + [sep] + b, sep) == [a] + SplitOn(b, sep)
  {
    var s := a + [sep] + b;
    if a == [] {
      assert s[0] == sep && s[1..] == b;
    } else {
      assert s[0] == a[0] && s[1..] == a[1..] + [sep] + b;
      SplitOnAfterFirst(a[1..], b, sep);
      assert [a[0]] + a[1..] == a;
    }
  }

  /** A string containing "//" holds at least two slashes, so its split on
      "/" has at least three parts. */
  lemma {:induction false} DoubleSlashSplits(s: string)
    requires Contains(s, "//")
    ensures multiset(s)['/'] >= 2
    ensures |SplitOn(s, '/')| >= 3
    decreases |s|
  {
    SplitOnSpec(s, '/');
    assert s == [s[0]] + s[1..];
    if StartsWith(s, "//") {
      assert s[1..] == [s[1]] + s[2..];
    } else {
      DoubleSlashSplits(s[1..]);
    }
  }

  /** Line-boundary characters of `str.splitlines()`. */
  const LineBoundaries: set<char> :=
    {'\n', '\r', '\U{B}', '\U{C}', '\U{1C}', '\U{1D}', '\U{1E}', '\U{85}', '\U{2028}', '\U{2029}'}

  /** Line-boundary characters of a file read in text mode with universal newlines. */
  const UniversalNewlines: set<char> := {'\n', '\r'}

  /** Position of the first line-boundary character, or `|s|`. */
  function BreakIndex(s: string, breaks: set<char>): (k: nat)
    ensures k <= |s|
    ensures k < |s| ==> s[k] in breaks
  {
    if s == [] || s[0] in breaks then 0 else 1 + BreakIndex(s[1..], breaks)
  }

  /** The line before the first boundary holds no boundary character. */
  lemma {:induction false} BreakIndexSpec(s: string, breaks: set<char>)
    ensures NoBreaks(s[..BreakIndex(s, breaks)], breaks)
    decreases |s|
  {
    if s != [] && s[0] !in breaks {
      BreakIndexSpec(s[1..], breaks);
      var k := BreakIndex(s, breaks);
      forall i | 0 <= i < k
        ensures s[..k][i] !in breaks
      {
        if i > 0 {
          assert s[..k][i] == s[1..][..k - 1][i - 1];
        }
      }
    }
  }

  /** Where the line after the first boundary starts: "\r\n" counts as one
      boundary. */
  function NextStart(s: string, breaks: set<char>): (n: nat)
    requires BreakIndex(s, breaks) < |s|
    ensures BreakIndex(s, breaks) < n <= |s|
  {
    var k := BreakIndex(s, breaks);
    if s[k] == '\r' && k + 1 < |s| && s[k + 1] == '\n' then k + 2 else k + 1
  }

  /** The lines of `s` without their terminators; a final terminator does not
      start an empty line. */
  function Lines(s: string, breaks: set<char>): seq<string>
    decreases |s|
  {
    if s == [] then []
    else if BreakIndex(s, breaks) == |s| then [s]
    else [s[..BreakIndex(s, breaks)]] + Lines(s[NextStart(s, breaks)..], breaks)
  }

  /** No line holds a boundary character. */
  lemma {:induction false} LinesHaveNoBreaks(s: string, breaks: set<char>)
    ensures forall j :: 0 <= j < |Lines(s, breaks)| ==> NoBreaks(Lines(s, breaks)[j], breaks)
    decreases |s|
  {
    BreakIndexSpec(s, breaks);
    if BreakIndex(s, breaks) == |s| {
      assert s[..|s|] == s;
    } else {
      var rest := s[NextStart(s, breaks)..];
      LinesHaveNoBreaks(rest, breaks);
      var r := Lines(s, breaks);
      forall j | 0 <= j < |r|
        ensures NoBreaks(r[j], breaks)
      {
        if j > 0 {
          assert r[j] == Lines(rest, breaks)[j - 1];
        }
      }
    }
  }

  /** `s.splitlines()` */
  function SplitLines(s: string): seq<string> {
    Lines(s, LineBoundaries)
  }

  /** The stripped-of-terminator lines `for line in f` yields on a text file. */
  function ReadLines(s: string): seq<string> {
    Lines(s, UniversalNewlines)
  }

  predicate NoBreaks(s: string, breaks: set<char>) {
    forall k :: 0 <= k < |s| ==> s[k] !in breaks
  }

  /** Text ending in "\n" (or empty) splits independently of what follows it. */
  lemma {:induction false} LinesAppend(c: string, t: string, breaks: set<char>)
    requires '\n' in breaks
    requires c == [] || c[|c| - 1] == '\n'
    ensures Lines(c + t, breaks) == Lines(c, breaks) + Lines(t, breaks)
    decreases |c|
  {
    if c == [] {
      assert c + t == t;
    } else {
      TerminatedHasBreak(c, breaks);
      LinesAppend(c[NextStart(c, breaks)..], t, breaks);
      LinesAppendStep(c, t, breaks);
    }
  }

  /** A text ending in "\n" has a first boundary, and what follows it still
      ends in "\n". */
  lemma TerminatedHasBreak(c: string, breaks: set<char>)
    requires '\n' in breaks && c != [] && c[|c| - 1] == '\n'
    ensures BreakIndex(c, breaks) < |c|
    ensures var rest := c[NextStart(c, breaks)..]; rest == [] || rest[|rest| - 1] == '\n'
  {
    var k := BreakIndex(c, breaks);
    BreakIndexSpec(c, breaks);
    assert k < |c|;
    var rest := c[NextStart(c, breaks)..];
    if rest != [] {
      assert rest[|rest| - 1] == c[|c| - 1];
    }
  }

  /** One step of `LinesAppend`: the first line of `c` is the first line of
      `c + t`, and the rest follows from the lines after it. */
  lemma LinesAppendStep(c: string, t: string, breaks: set<char>)
    requires '\n' in breaks && c != [] && c[|c| - 1] == '\n'
    requires BreakIndex(c, breaks) < |c|
    requires Lines(c[NextStart(c, breaks)..] + t, breaks) == Lines(c[NextStart(c, breaks)..], breaks) + Lines(t, breaks)
    ensures Lines(c + t, breaks) == Lines(c, breaks) + Lines(t, breaks)
  {
    FirstLineOfAppend(c, t, breaks);
    var rest := c[NextStart(c, breaks)..];
    ConsAppend([c[..BreakIndex(c, breaks)]], Lines(rest, breaks), Lines(t, breaks),
      Lines(rest + t, breaks), Lines(c, breaks), Lines(c + t, breaks));
  }

  /** Regrouping a concatenation whose parts are given by equations. */
  lemma ConsAppend<T>(first: seq<T>, a: seq<T>, b: seq<T>, ab: seq<T>, whole: seq<T>, wholeB: seq<T>)
    requires ab == a + b && whole == first + a && wholeB == first + ab
    ensures wholeB == whole + b
  {
    assert first + (a + b) == (first + a) + b;
  }

  /** Splitting off the first line of `c + t` where that line ends inside `c`. */
  lemma FirstLineOfAppend(c: string, t: string, breaks: set<char>)
    requires '\n' in breaks && c != [] && c[|c| - 1] == '\n'
    requires BreakIndex(c, breaks) < |c|
    ensures Lines(c, breaks) == [c[..BreakIndex(c, breaks)]] + Lines(c[NextStart(c, breaks)..], breaks)
    ensures Lines(c + t, breaks) ==
      [c[..BreakIndex(c, breaks)]] + Lines(c[NextStart(c, breaks)..] + t, breaks)
  {
    var k := BreakIndex(c, breaks);
    var n := NextStart(c, breaks);
    var s := c + t;
    assert BreakIndex(s, breaks) == k by {
      BreakIndexPrefix(c, t, breaks);
    }
    assert NextStart(s, breaks) == n by {
      assert s[k] == c[k];
      if k + 1 < |c| {
        assert s[k + 1] == c[k + 1];
      } else {
        assert c[k] == '\n';
      }
    }
    assert s[..k] == c[..k];
    assert s[n..] == c[n..] + t;
  }

  lemma {:induction false} BreakIndexPrefix(c: string, t: string, breaks: set<char>)
    requires BreakIndex(c, breaks) < |c|
    ensures BreakIndex(c + t, breaks) == BreakIndex(c, breaks)
  {
    if c[0] !in breaks {
      assert (c + t)[1..] == c[1..] + t;
      BreakIndexPrefix(c[1..], t, breaks);
    }
  }

  /** A line without boundary characters followed by "\n" is exactly one line. */
  lemma OneLine(h: string, breaks: set<char>)
    requires '\n' in breaks && NoBreaks(h, breaks)
    ensures Lines(h + "\n", breaks) == [h]
  {
    var s := h + "\n";
    BreakIndexAt(h, "\n", breaks);
    assert s[..|h|] == h;
    assert s[|h| + 1..] == [];
  }

  /** A non-empty string without boundary characters is a single line. */
  lemma Unterminated(h: string, breaks: set<char>)
    requires h != [] && NoBreaks(h, breaks)
    ensures Lines(h, breaks) == [h]
  {
    BreakIndexAt(h, [], breaks);
    assert h + [] == h;
  }

  lemma {:induction false} BreakIndexAt(h: string, t: string, breaks: set<char>)
    requires NoBreaks(h, breaks)
    requires t == [] || t[0] in breaks
    ensures BreakIndex(h + t, breaks) == |h|
  {
    if h != [] {
      assert (h + t)[1..] == h[1..] + t;
      BreakIndexAt(h[1..], t, breaks);
    } else {
      assert h + t == t;
    }
  }
}

=== FILE: seqs.dfy ===
/** Order-preserving filtering of sequences, as Python list comprehensions
    with an `if` clause do it. */
module Seqs {

  /** `a` can be obtained from `b` by deleting elements: the elements of `a`
      appear in `b` in the same order. Greedy matching decides this. */
  ghost predicate SubsequenceOf<T>(a: seq<T>, b: seq<T>)
    decreases |b|
  {
    a == [] ||
    (b != [] &&
     if a[0] == b[0] then SubsequenceOf(a[1..], b[1..]) else SubsequenceOf(a, b[1..]))
  }

  ghost predicate NoDuplicates<T>(s: seq<T>) {
    forall i, j :: 0 <= i < j < |s| ==> s[i] != s[j]
  }

  /** `[x for x in s if keep(x)]` */
  function Filter<T>(s: seq<T>, keep: T -> bool): seq<T>
    decreases |s|
  {
    if s == [] then []
    else if keep(s[0]) then [s[0]] + Filter(s[1..], keep)
    else Filter(s[1..], keep)
  }

  /** The result holds the elements of `s` that satisfy `keep`, all of them
      and only them, in their order in `s`. */
  lemma {:induction false} FilterSpec<T>(s: seq<T>, keep: T -> bool)
    ensures var r := Filter(s, keep);
      |r| <= |s| &&
      (forall i :: 0 <= i < |r| ==> r[i] in s && keep(r[i])) &&
      (forall i :: 0 <= i < |s| && keep(s[i]) ==> s[i] in r) &&
      SubsequenceOf(r, s)
    decreases |s|
  {
    if s != [] {
      FilterSpec(s[1..], keep);
      var t := Filter(s[1..], keep);
      if keep(s[0]) {
        var r := [s[0]] + t;
        assert r[1..] == t;
        forall i | 0 <= i < |r|
          ensures r[i] in s && keep(r[i])
        {
          if i > 0 {
            assert r[i] == t[i - 1];
          }
        }
        forall i | 0 <= i < |s| && keep(s[i])
          ensures s[i] in r
        {
          if i > 0 {
            assert s[i] == s[1..][i - 1];
          }
        }
      } else {
        forall i | 0 <= i < |s| && keep(s[i])
          ensures s[i] in t
        {
          assert s[i] == s[1..][i - 1];
        }
        SubsequenceWeaken(t, s[1..], s[0]);
        assert [s[0]] + s[1..] == s;
      }
    }
  }

  /** Filtering a sequence extended by one element extends the result by
      that element when it is kept. */
  lemma {:induction false} FilterSnoc<T>(s: seq<T>, x: T, keep: T -> bool)
    ensures Filter(s + [x], keep) == Filter(s, keep) + (if keep(x) then [x] else [])
    decreases |s|
  {
    if s == [] {
      assert [] + [x] == [x];
      assert [x][1..] == [];
    } else {
      assert (s + [x])[0] == s[0];
      assert (s + [x])[1..] == s[1..] + [x];
      FilterSnoc(s[1..], x, keep);
    }
  }

  /** The sequence of the images of the elements of `s`, in order. */
  function Map<T, U>(s: seq<T>, f: T -> U): (r: seq<U>)
    ensures |r| == |s|
  {
    seq(|s|, i requires 0 <= i < |s| => f(s[i]))
  }

  /** Mapping a sequence extended by one element extends the result by that
      element's image. */
  lemma MapSnoc<T, U>(s: seq<T>, x: T, f: T -> U)
    ensures Map(s + [x], f) == Map(s, f) + [f(x)]
  {
    var l, r := Map(s + [x], f), Map(s, f) + [f(x)];
    forall i | 0 <= i < |l| ensures l[i] == r[i] {
      if i < |s| {
        assert (s + [x])[i] == s[i];
      }
    }
  }

  /** Filtering a sequence without repeated elements cannot create repetitions. */
  lemma {:induction false} FilterNoDuplicates<T>(s: seq<T>, keep: T -> bool)
    requires NoDuplicates(s)
    ensures NoDuplicates(Filter(s, keep))
  {
    if s != [] {
      assert NoDuplicates(s[1..]) by {
        forall i, j | 0 <= i < j < |s[1..]| ensures s[1..][i] != s[1..][j] {
          assert s[1..][i] == s[i + 1] && s[1..][j] == s[j + 1];
        }
      }
      FilterNoDuplicates(s[1..], keep);
      FilterSpec(s[1..], keep);
      var t := Filter(s[1..], keep);
      if keep(s[0]) {
        assert s[0] !in s[1..] by {
          forall k | 0 <= k < |s[1..]| ensures s[1..][k] != s[0] {
            assert s[1..][k] == s[k + 1];
          }
        }
        assert s[0] !in t;
        var r := [s[0]] + t;
        forall i, j | 0 <= i < j < |r| ensures r[i] != r[j] {
          if i == 0 {
            assert r[j] == t[j - 1];
          } else {
            assert r[i] == t[i - 1] && r[j] == t[j - 1];
          }
        }
      }
    }
  }

  /** Deleting elements twice is deleting elements once. */
  lemma {:induction false} SubsequenceTransitive<T>(a: seq<T>, b: seq<T>, c: seq<T>)
    requires SubsequenceOf(a, b) && SubsequenceOf(b, c)
    ensures SubsequenceOf(a, c)
    decreases |c|
  {
    if a != [] {
      assert b != [] && c != [];
      if b[0] == c[0] {
        assert SubsequenceOf(b[1..], c[1..]);
        if a[0] == b[0] {
          assert SubsequenceOf(a[1..], b[1..]);
          SubsequenceTransitive(a[1..], b[1..], c[1..]);
        } else {
          assert SubsequenceOf(a, b[1..]);
          SubsequenceTransitive(a, b[1..], c[1..]);
        }
      } else {
        assert SubsequenceOf(b, c[1..]);
        SubsequenceTransitive(a, b, c[1..]);
        if a[0] == c[0] {
          SubsequenceDropHead(a, c[1..]);
        }
      }
    }
  }

  /** A subsequence of the tail, whose head equals the head of the whole,
      also matches the whole sequence greedily. */
  lemma {:induction false} SubsequenceDropHead<T>(a: seq<T>, c: seq<T>)
    requires a != [] && SubsequenceOf(a, c)
    ensures SubsequenceOf(a[1..], c)
    decreases |c|, 0
  {
    assert c != [];
    if a[0] == c[0] {
      SubsequenceWeaken(a[1..], c[1..], c[0]);
    } else {
      SubsequenceDropHead(a, c[1..]);
      SubsequenceWeaken(a[1..], c[1..], c[0]);
    }
  }

  /** Putting an element in front of the larger sequence keeps a subsequence one. */
  lemma {:induction false} SubsequenceWeaken<T>(a: seq<T>, c: seq<T>, x: T)
    requires SubsequenceOf(a, c)
    ensures SubsequenceOf(a, [x] + c)
    decreases |c|, 1
  {
    assert ([x] + c)[1..] == c;
    if a != [] && a[0] == x {
      SubsequenceDropHead(a, c);
    }
  }
}

=== FILE: wrappers.dfy ===
/** The optional value the loader uses for values Python represents with `None`. */
module Wrappers {

  datatype Option<+T> = None | Some(value: T)
}
